=== FILE: README.md ===
# Invoice extractor backend, modelled in Dafny

The service accepts an uploaded PDF invoice, has a generative model read it,
normalises the reply into a fourteen-field invoice record, lets a client export
a record as a spreadsheet or a CSV file, and keeps an activity log of the last
hundred pipeline events in a JSON file. This project models the logic inside
that glue and proves what it promises:

- `JsValue.dfy`: the JavaScript values the code handles (what JSON.parse returns,
  plus `undefined`), truthiness and `a || b`, property access (a TypeError on
  `null`/`undefined`), and the text a value becomes in a template literal.
- `Wrappers.dfy`: `Option`, and `Result` for a thrown Error.
- `GeminiService.dfy`: trimming the model's reply, stripping Markdown code
  fences, the object literal that defaults every field, and the error wrapping
  of extractInvoiceData.
- `ExcelService.dfy`: generateCSV's string accumulation (methods with a loop,
  proved against the function `CsvLines` that lists the lines), generateExcel's Summary and
  Line Items row arrays, and the export file names.
- `LogService.dfy`: the log file as a class whose `LogActivity` reads, pushes,
  keeps the last 100 entries and writes back, and whose `GetLogs` reads; a
  failed read counts as an empty log.
- `InvoiceRoutes.dfy`: the upload filter and size limit, the `/upload` decision
  procedure with its status codes and exact log appends, and the two export
  handlers that log only after the file was generated.

The clock (`Date.now()`, `toISOString()`), the model's reply, JSON.parse and
the outcome of each file write are parameters.

A missing API key is answered with status 400 and a body whose `error` field
is "Gemini API key is required" and whose `message` field asks for the key in
the X-API-Key header (routes/invoiceRoutes.js:45-51). Once the reply starts
with a fence, fence stripping removes every fence in it, not only the outer
ones (services/geminiService.js:67-70); `GeminiService.InnerFenceRemoved`
makes this explicit.

## Model

| member | source | states |
|---|---|---|
| `GeminiService.Trim` | services/geminiService.js:66 | the trimmed reply neither starts nor ends with white space |
| `GeminiService.TrimIsPaddedRun` | services/geminiService.js:66 | the trimmed reply is a run of the input with only white space before and after it |
| `GeminiService.StripFences` | services/geminiService.js:66-71 | the trimmed reply, with every json-tagged fence and then every plain fence (each with one optional newline) removed when it starts with a json-tagged fence, every plain fence removed when it starts with a plain one, unchanged otherwise; never longer than the trimmed reply (the lemmas below state what it guarantees) |
| `GeminiService.RemoveAll` | services/geminiService.js:68-70 | a global `replace` with the empty string: occurrences are found left to right without overlap and removed; the result is never longer than the input |
| `GeminiService.StripFencesUnfenced` | services/geminiService.js:66-71 | a trimmed reply that starts with no fence reaches JSON.parse unchanged |
| `GeminiService.StripFencesRemovesEveryFence` | services/geminiService.js:67-70 | once the trimmed reply starts with a fence (tagged json or not), no three backquotes in a row are left anywhere in the text handed to JSON.parse |
| `GeminiService.RemoveAllLeavesNoFence` | services/geminiService.js:68-70 | the global replace of a fence plus optional newline leaves no fence, even where removal joins backquotes |
| `GeminiService.InnerFenceRemoved` | services/geminiService.js:68-70 | a fence in the middle of the text is removed as well, not only the outer ones |
| `GeminiService.RemoveAllSkipsPrefix` | services/geminiService.js:68-70 | text before the first match is kept as it is |
| `GeminiService.StripFencesRoundTrip` | services/geminiService.js:65-68 | a json-tagged fenced block around a fence-free body yields the body followed by one newline |
| `GeminiService.Normalize` | services/geminiService.js:76-91 | fails exactly on a parsed null (or undefined), with the TypeError message "Cannot read properties of null (reading 'invoiceNumber')" (undefined in place of null for undefined); otherwise every one of the fourteen fields is defined, a truthy value passes through unchanged, a falsy one becomes its default (N/A, empty string, empty array, 0 or INR), and confidence is always high |
| `GeminiService.ToValue` | services/geminiService.js:76-91 | the returned object has exactly the fourteen record keys; other keys of the reply are dropped |
| `GeminiService.NormalizeReadsOnlyRecordKeys` | services/geminiService.js:76-91 | two replies that agree on the fourteen keys normalise to the same record, whatever other keys they hold |
| `GeminiService.NormalizeIdempotent` | services/geminiService.js:76-91 | normalising the service's own output gives the same record |
| `GeminiService.ExtractInvoiceData` | services/geminiService.js:63-96 | succeeds exactly when the reply arrived, parses after fence stripping, and is not null; then it is the normalised record; every failure message is the same prefix followed by the message of the error caught: the call's error, JSON.parse's error, or for a parsed null the TypeError message of reading invoiceNumber |
| `ExcelService.HasItems` | services/excelService.js:43 | the guard `data.lineItems && data.lineItems.length > 0`: it implies a defined, truthy value; for an array it holds exactly when the array is non-empty, for a string exactly when the string is non-empty |
| `ExcelService.FirstInaccessible` | services/excelService.js:97-98 | the index of the first null or undefined item, where the forEach or map callback throws: every item before it is defined |
| `ExcelService.CsvLines` | services/excelService.js:84-109 | the lines generateCSV accumulates, or the error of the first read that throws: V8's TypeError for null data (reading invoiceNumber) or for the first null item (reading description), or "data.lineItems.forEach is not a function"; a success has at least eighteen lines (CsvLayout, CsvShape and CsvFailures state the rest) |
| `ExcelService.CsvText` | services/excelService.js:84-109 | the text is each line of `CsvLines` followed by a newline (CsvTextSplitsIntoLines and CsvEndsWithCurrency state its properties) |
| `ExcelService.DetailBlock` | services/excelService.js:84-90 | the first block, one `+=` per line, is the seven detail lines each followed by a newline |
| `ExcelService.GenerateCsvContent` | services/excelService.js:84-109 | the accumulated text is the lines `CsvLines` lists, each followed by a newline, or the same error as `CsvLines` |
| `ExcelService.AppendItemRows` | services/excelService.js:96-100 | one line per item in input order; a null or undefined item throws |
| `ExcelService.StartCsv` | services/excelService.js:84-94 | the first block and the head of the items block, one line per `+=` |
| `ExcelService.FinishCsv` | services/excelService.js:102-109 | the summary block appended after the items |
| `ExcelService.CsvLayout` | services/excelService.js:84-109 | Invoice Details then six key,value lines in fixed order, a blank line, the items title and column line, one line per item, a blank line, Financial Summary and six key,value lines ending with Currency; address, GSTIN and customer read N/A and the three taxes 0 when falsy, the other fields as they are |
| `ExcelService.CsvFailures` | services/excelService.js:84-100 | generateCSV throws when data is null or undefined, when lineItems passes the guard without being an array, or when an item is null or undefined, and builds the text otherwise (for values whose template-literal conversion does not throw) |
| `ExcelService.CsvWithoutItems` | services/excelService.js:93-100 | with falsy or empty lineItems the items title and column line are still present and no item line is |
| `ExcelService.CsvEndsWithCurrency` | services/excelService.js:109 | the text ends with the Currency line |
| `ExcelService.LinesUnlines` | services/excelService.js:84-109 | splitting the accumulated text at newlines gives back the lines written, when no line holds a newline |
| `ExcelService.CsvTextSplitsIntoLines` | services/excelService.js:84-109 | the CSV text read back line by line gives the lines `CsvLines` lists, when no value holds a newline |
| `ExcelService.DescriptionQuoteNotEscaped` | services/excelService.js:98 | the description is wrapped in double quotes as it is; an embedded quote is not doubled, so the line differs from quoting per section 2 of RFC 4180 |
| `ExcelService.CsvOneItem` | services/excelService.js:84-109 | an invoice with a single line item has nineteen lines, the item on the eleventh and the total on the eighteenth |
| `ExcelService.CsvWidgetExample` | services/excelService.js:98-108 | an invoice whose one item is 2 widgets at 50 for 100 and whose total is 118 gives the item line `"Widget",2,50,100` and the line `Total Amount,118` |
| `ExcelService.ItemsToVisit` | services/excelService.js:43-46 | the guard `lineItems && lineItems.length > 0`: no items when it fails, exactly the array's elements when it holds of an array, and no forEach or map to call (None) exactly when it holds of anything else |
| `ExcelService.SummaryRows` | services/excelService.js:14-30 | the Summary row array: fifteen rows, the eighth one cell, every other two |
| `ExcelService.ItemTable` | services/excelService.js:44-52 | the Line Items row array: the column header, then one four-cell row per item starting with its description |
| `ExcelService.Workbook` | services/excelService.js:14-65 | fails on the same inputs as the CSV; the first sheet is Summary; a second sheet exists exactly when lineItems is non-empty |
| `ExcelService.SummaryLayout` | services/excelService.js:14-30 | fifteen rows in fixed order, the eighth a single empty cell, every other a label and a value; the two titles have an empty value, invoice number, date, vendor, subtotal, total and currency are shown as they are, address, GSTIN and customer read N/A and the three taxes 0 when falsy |
| `ExcelService.LineItemsSheetLayout` | services/excelService.js:43-52 | the Line Items sheet is the column header then one row per item, in order |
| `ExcelService.SummaryAgrees` | services/excelService.js:14-30 | every key,value line of the CSV is the matching Summary row of the workbook, with the same defaults |
| `ExcelService.ItemsAgree` | services/excelService.js:43-52 | the CSV has item lines exactly when the workbook has a Line Items sheet, and each item line is that sheet's row for the same item |
| `ExcelService.DoubleQuotesLengthens` | services/excelService.js:98 | quote doubling lengthens any text holding a double quote |
| `ExcelService.BaseName` | services/excelService.js:9 | the default parameter `fileName = 'invoice'`: only an undefined name is replaced; null, an empty string or any other value is kept |
| `ExcelService.ExportPath` | services/excelService.js:69-70 | the file name ends with the extension, preceded by the decimal timestamp and a dash; an undefined name becomes `invoice-`, a string name is kept before the dash |
| `ExcelService.ExportPathDistinct` | services/excelService.js:69-70 | exports of the same name at two different milliseconds get different paths |
| `ExcelService.GenerateExcel` | services/excelService.js:9-79 | returns the workbook at the path of the name and timestamp with extension .xlsx when its rows can be built and it was written; otherwise the one generic error |
| `ExcelService.GenerateCsv` | services/excelService.js:81-123 | returns the file with the CSV text when the text can be built and was written; otherwise the one generic error |
| `JsValue.Truthy` | services/geminiService.js:77-89 | ECMAScript ToBoolean: undefined, null, false, 0 and the empty string are falsy, everything else (arrays and objects included) truthy |
| `JsValue.Or` | services/geminiService.js:77-89 | `a || b`: the first operand when truthy, otherwise the second |
| `JsValue.Get` | services/excelService.js:16-29 | a property read: an object's own key or undefined, the length of a string or array; defined only on values that are not null or undefined |
| `JsValue.ReadError` | services/geminiService.js:77 | the message of the TypeError for reading a key of null or undefined, naming the value and the key |
| `JsValue.ToStr` | services/excelService.js:85-109 | the text of a template-literal substitution: strings as they are, integers in decimal, arrays joined with commas with null and undefined elements empty, objects as "[object Object]" |
| `JsValue.NatStr` | services/excelService.js:98 | a number prints as a non-empty run of decimal digits without a leading zero |
| `JsValue.NatStrRoundTrip` | services/excelService.js:98 | reading the printed digits back gives the number |
| `LogService.Stamp` | services/logService.js:24-27 | the stored entry has the caller's keys plus `id`; a caller's key wins over the timestamp id; keys whose value is undefined are not stored |
| `LogService.Appended` | services/logService.js:24-32 | after a push the length is min(old + 1, 100), the new entry is last, and the others are the newest of the old entries in their order |
| `LogService.AppendEvictsOldest` | services/logService.js:29-32 | on a log of 100 or more, the push evicts from the front and keeps the last 99 old entries |
| `LogService.AppendTwiceKeepsOrder` | services/logService.js:24-32 | two pushes in a row end the log with both entries in the order made |
| `LogService.ReadLogs` | services/logService.js:14-21 | what one read yields: the stored entries when the read succeeds and the file parses, an empty log when the file is missing, unparseable or the read fails for any other reason |
| `LogService.AfterAppend` | services/logService.js:10-42 | the file after one logActivity call: with a successful write it holds min(read + 1, 100) entries ending with the stamped entry, where read is what the read yielded; with a failed write it is unchanged |
| `LogService.ReadFailureDropsLog` | services/logService.js:15-35 | a failed read followed by a successful write replaces the whole stored log with the one new entry |
| `LogService.LogStore.LogActivity` | services/logService.js:10-42 | a missing, unreadable or unparseable file reads as empty; returns true and stores the bounded sequence after a successful write, returns false and leaves the file otherwise |
| `LogService.LogStore.GetLogs` | services/logService.js:44-51 | returns the stored sequence, or an empty one when the file is missing or unparseable or the read fails |
| `InvoiceRoutes.Admit` | routes/invoiceRoutes.js:25-35 | only the exact PDF media type and at most 10·1024·1024 bytes reach the handler; any other media type is refused with "Only PDF files are allowed!", and a PDF over the limit with "File too large" |
| `InvoiceRoutes.UploadOutcome` | routes/invoiceRoutes.js:38-100 | no file: 400 and no log; a file without a non-empty key: 400 and no log; otherwise exactly two entries, processing first, then success with the record and a 200 answer, or failed with the message and a 500 answer |
| `InvoiceRoutes.UploadLogsInOrder` | routes/invoiceRoutes.js:57-92 | after a validated upload whose two writes succeed and whose second read succeeds, the log ends with the processing entry and then the outcome entry |
| `InvoiceRoutes.Upload` | routes/invoiceRoutes.js:38-100 | the handler answers as UploadOutcome says and applies exactly its log appends, in order, to the store |
| `InvoiceRoutes.DownloadName` | routes/invoiceRoutes.js:116 | a falsy name downloads as invoice plus the extension, a truthy name as its template-literal text plus the extension (a non-empty string as itself) |
| `InvoiceRoutes.EmptyNameDisagrees` | routes/invoiceRoutes.js:139 | for an empty name the stored file starts with a dash while the download is offered as invoice.csv |
| `InvoiceRoutes.ExportExcel` | routes/invoiceRoutes.js:103-123 | logs one export entry only after the workbook was generated; a failure answers 500 and leaves the log as it was |
| `InvoiceRoutes.ExportCsv` | routes/invoiceRoutes.js:126-146 | logs one export entry only after the CSV file was generated; a failure answers 500 and leaves the log as it was |

## Left out

- The call to the generative model: model selection, base64 encoding of the PDF, the prompt and `response.text()`; the reply text or the call's error is a parameter of `ExtractInvoiceData`.
- JSON.parse of the reply and of the log file: a parameter of `ExtractInvoiceData`; the log file is either a parsed sequence of entries or missing/unparseable.
- A log file that parses to something other than an array of objects is not represented: for a non-array logActivity would return false and getLogs would return that value; an array holding numbers, strings or null would be extended and returned as it is, while an entry here is always a key-value map.
- The spreadsheet library (`aoa_to_sheet`, `book_append_sheet`, column widths, `writeFile`): only the row arrays handed to it are modelled; whether it wrote the file is a parameter.
- Filesystem effects: the export and upload directories, the scratch copy of the upload and its name, and the write of the CSV text are parameters or left out; a failed log write is taken to leave the file as it was (a partial write is not modelled).
- Concurrency: two overlapping requests can lose a log entry through the read-modify-write; the model runs one call at a time.
- Express plumbing: `res.json`, `res.download` and its callback, CORS headers, `/logs` and `/logs/test`. The status of a request the upload filter refuses is chosen by the application's error handler, which is not part of this model (`UploadRefused` carries the reason).
- The API key from the header is checked for presence but never used by extraction, which reads its own key from the environment; the model does not invent a downstream check.
- `ExcelService.CsvFailures`: an object with its own `toString` key in a field value or in an element of an array field makes the template literal throw a TypeError in JavaScript, so generateCSV answers with its generic failure and the route answers 500 without logging; the lemma does not promise that such data fails, because the model prints it (see the next line).
- `JsValue.ToStr`: always yields a text; an object with its own `toString` key (never a function in parsed JSON), alone or inside an array, is printed as "[object Object]" where JavaScript throws a TypeError.
- `ExcelService.ExportPath`: a `fileName` that is an object with its own `toString` key makes the template literal throw, so generateExcel and generateCSV fail with their generic error; the model builds a path with "[object Object]" instead. Also, path.join normalises `..` segments of fileName, so such a name is written outside the exports directory; the model keeps the name as written and does not model the join.
- `InvoiceRoutes.DownloadName`: a truthy `fileName` object with its own `toString` key throws in JavaScript (the export has already failed by then); the model gives "[object Object]" plus the extension.
- Numbers are integers: fractions, NaN and exponent notation of very large numbers in the CSV text are not modelled.
- `ExcelService.HasItems`: a `length` that is itself a string, array or object (only possible for an object-valued lineItems with its own `length` key) is treated as not positive, where JavaScript would convert it to a number first.
- Property access models the non-numeric keys the code reads; array index keys and inherited properties are not modelled.
- JSON key order in the stored log entries is not modelled (entries are maps).

=== FILE: ExcelService.dfy ===
/**
 * The two exporters: generateCSV builds a three-block delimited text by string
 * accumulation, generateExcel builds the row arrays of a Summary sheet and an
 * optional Line Items sheet. Both take the request's `data` as it came in, so
 * every field may hold any JSON value or be absent.
 */
module ExcelService {
  import opened Wrappers
  import opened JsValue

  const CsvFailure := "Failed to generate CSV file"
  const ExcelFailure := "Failed to generate Excel file"

  /** The TypeError message of calling a method `data.lineItems` does not have. */
  function NotAFunction(call: string): string
  {
    "data.lineItems." + call + " is not a function"
  }

  // ---------------------------------------------------------------------------
  // Line items, as both exporters see them

  /** `x > 0` for a `length` value: numbers and booleans compare as numbers; null and undefined are not positive. */
  predicate Positive(v: Value)
  {
    match v
    case Num(n) => n > 0
    case Bool(b) => b
    case _ => false
  }

  /** `data.lineItems && data.lineItems.length > 0`. */
  predicate HasItems(lineItems: Value)
    ensures HasItems(lineItems) ==> Truthy(lineItems) && Accessible(lineItems)
    ensures lineItems.Arr? ==> (HasItems(lineItems) <==> lineItems.items != [])
    ensures lineItems.Str? ==> (HasItems(lineItems) <==> lineItems.s != "")
  {
    Truthy(lineItems) && Accessible(lineItems) && Positive(Get(lineItems, "length"))
  }

  /**
   * The elements forEach or map visits: none when the guard fails, the array's
   * elements when it holds of an array, and None when it holds of anything
   * else, which has no forEach or map to call (a non-empty string has a
   * length but no forEach).
   */
  function ItemsToVisit(lineItems: Value): (r: Option<seq<Value>>)
    ensures !HasItems(lineItems) ==> r == Some([])
    ensures HasItems(lineItems) && lineItems.Arr? ==> r == Some(lineItems.items)
    ensures r.Some? && r.value != [] ==> lineItems == Arr(r.value)
    ensures r.None? <==> HasItems(lineItems) && !lineItems.Arr?
  {
    if !HasItems(lineItems) then Some([])
    else if lineItems.Arr? then Some(lineItems.items)
    else None
  }

  predicate AllAccessible(items: seq<Value>)
  {
    forall i :: 0 <= i < |items| ==> Accessible(items[i])
  }

  /** The index of the first null or undefined item: the one whose `.description` throws. */
  function FirstInaccessible(items: seq<Value>): (i: nat)
    requires !AllAccessible(items)
    ensures i < |items| && !Accessible(items[i]) && AllAccessible(items[..i])
  {
    if !Accessible(items[0]) then 0
    else
      assert !AllAccessible(items[1..]) by {
        var j :| 0 <= j < |items| && !Accessible(items[j]);
        assert items[1..][j - 1] == items[j];
      }
      var j := FirstInaccessible(items[1..]);
      assert items[..j + 1] == [items[0]] + items[1..][..j];
      j + 1
  }

  /** An index with only accessible items before it and an inaccessible one at it is the first. */
  lemma FirstInaccessibleAt(items: seq<Value>, i: nat)
    requires i < |items| && !Accessible(items[i]) && AllAccessible(items[..i])
    ensures FirstInaccessible(items) == i
  {
    var j := FirstInaccessible(items);
    assert forall k :: 0 <= k < i ==> items[..i][k] == items[k];
    assert forall k :: 0 <= k < j ==> items[..j][k] == items[k];
  }

  /** The TypeError the item loop throws at the first null or undefined item. */
  function ItemError(items: seq<Value>): string
    requires !AllAccessible(items)
  {
    ReadError(items[FirstInaccessible(items)], "description")
  }

  // ---------------------------------------------------------------------------
  // Lines of text

  /** Every line followed by a newline. */
  function Unlines(lines: seq<string>): string
  {
    if lines == [] then "" else lines[0] + "\n" + Unlines(lines[1..])
  }

  lemma {:induction false} UnlinesAppend(a: seq<string>, b: seq<string>)
    ensures Unlines(a + b) == Unlines(a) + Unlines(b)
  {
    if a != [] {
      assert (a + b)[1..] == a[1..] + b;
      UnlinesAppend(a[1..], b);
    } else {
      assert a + b == b;
    }
  }

  lemma UnlinesSnoc(a: seq<string>, line: string)
    ensures Unlines(a + [line]) == Unlines(a) + line + "\n"
  {
    UnlinesAppend(a, [line]);
    assert [line][1..] == [];
  }

  /** The length of the first line of t. */
  function LineLength(t: string): (k: nat)
    ensures k <= |t|
  {
    if t == [] || t[0] == '\n' then 0 else 1 + LineLength(t[1..])
  }

  /** Splitting text into lines at each newline; the inverse of Unlines. */
  function Lines(t: string): seq<string>
    decreases |t|
  {
    if t == [] then []
    else
      var k := LineLength(t);
      if k == |t| then [t] else [t[..k]] + Lines(t[k + 1..])
  }

  predicate NoNewline(s: string)
  {
    forall i :: 0 <= i < |s| ==> s[i] != '\n'
  }

  lemma {:induction false} LineLengthOfLine(a: string, rest: string)
    requires NoNewline(a)
    ensures LineLength(a + "\n" + rest) == |a|
  {
    if a != [] {
      assert (a + "\n" + rest)[1..] == a[1..] + "\n" + rest;
      LineLengthOfLine(a[1..], rest);
    }
  }

  /** Reading the lines back out of the text gives the lines that were written. */
  lemma {:induction false} LinesUnlines(lines: seq<string>)
    requires forall i :: 0 <= i < |lines| ==> NoNewline(lines[i])
    ensures Lines(Unlines(lines)) == lines
  {
    if lines != [] {
      var rest := Unlines(lines[1..]);
      var t := lines[0] + "\n" + rest;
      LineLengthOfLine(lines[0], rest);
      assert t[..|lines[0]|] == lines[0];
      assert t[|lines[0]| + 1..] == rest;
      LinesUnlines(lines[1..]);
      assert [lines[0]] + lines[1..] == lines;
    }
  }

  // ---------------------------------------------------------------------------
  // generateCSV

  /** The first block: the title and six key,value lines. */
  function DetailLines(data: Value): seq<string>
    requires Accessible(data)
  {
    [ "Invoice Details",
      "Invoice Number," + ToStr(Get(data, "invoiceNumber")),
      "Invoice Date," + ToStr(Get(data, "invoiceDate")),
      "Vendor Name," + ToStr(Get(data, "vendorName")),
      "Vendor Address," + ToStr(Or(Get(data, "vendorAddress"), Str("N/A"))),
      "Vendor GSTIN," + ToStr(Or(Get(data, "vendorGSTIN"), Str("N/A"))),
      "Customer Name," + ToStr(Or(Get(data, "customerName"), Str("N/A"))) ]
  }

  /** The separator, the title and the column line of the second block. */
  const ItemsHeader: seq<string> := ["", "Line Items", "Description,Quantity,Rate,Amount"]

  /** One item line: the description in double quotes, as it is, and three bare fields. */
  function ItemRow(item: Value): string
    requires Accessible(item)
  {
    "\"" + ToStr(Get(item, "description")) + "\"," + ToStr(Get(item, "quantity")) + ","
      + ToStr(Get(item, "rate")) + "," + ToStr(Get(item, "amount"))
  }

  function ItemRows(items: seq<Value>): (rows: seq<string>)
    requires AllAccessible(items)
    ensures |rows| == |items|
  {
    seq(|items|, i requires 0 <= i < |items| => ItemRow(items[i]))
  }

  lemma ItemRowsSnoc(items: seq<Value>, item: Value)
    requires AllAccessible(items) && Accessible(item)
    ensures AllAccessible(items + [item])
    ensures ItemRows(items + [item]) == ItemRows(items) + [ItemRow(item)]
  {
    var xs := items + [item];
    assert forall k :: 0 <= k < |items| ==> xs[k] == items[k];
  }

  /** The separator, the title and six key,value lines of the third block. */
  function FinancialLines(data: Value): seq<string>
    requires Accessible(data)
  {
    [ "",
      "Financial Summary",
      "Subtotal," + ToStr(Get(data, "subtotal")),
      "CGST," + ToStr(Or(Get(data, "cgst"), Num(0))),
      "SGST," + ToStr(Or(Get(data, "sgst"), Num(0))),
      "IGST," + ToStr(Or(Get(data, "igst"), Num(0))),
      "Total Amount," + ToStr(Get(data, "totalAmount")),
      "Currency," + ToStr(Get(data, "currency")) ]
  }

  /** The lines of the CSV text, or the error generateCSV throws. */
  function CsvLines(data: Value): (r: Result<seq<string>>)
    ensures r.Ok? ==> Accessible(data) && |r.value| >= 18
  {
    if !Accessible(data) then Err(ReadError(data, "invoiceNumber"))
    else
      match ItemsToVisit(Get(data, "lineItems"))
      case None => Err(NotAFunction("forEach"))
      case Some(items) =>
        if !AllAccessible(items) then Err(ItemError(items))
        else Ok(DetailLines(data) + ItemsHeader + ItemRows(items) + FinancialLines(data))
  }

  function CsvText(data: Value): Result<string>
  {
    match CsvLines(data)
    case Err(e) => Err(e)
    case Ok(lines) => Ok(Unlines(lines))
  }

  /** services/excelService.js:84-90: the first block, one `+=` per line. */
  method DetailBlock(data: Value) returns (csv: string)
    requires Accessible(data)
    ensures csv == Unlines(DetailLines(data))
  {
    ghost var lines: seq<string> := [];
    csv := "";
    var line := "Invoice Details";
    UnlinesSnoc(lines, line); lines := lines + [line]; csv := csv + line + "\n";
    line := "Invoice Number," + ToStr(Get(data, "invoiceNumber"));
    UnlinesSnoc(lines, line); lines := lines + [line]; csv := csv + line + "\n";
    line := "Invoice Date," + ToStr(Get(data, "invoiceDate"));
    UnlinesSnoc(lines, line); lines := lines + [line]; csv := csv + line + "\n";
    line := "Vendor Name," + ToStr(Get(data, "vendorName"));
    UnlinesSnoc(lines, line); lines := lines + [line]; csv := csv + line + "\n";
    line := "Vendor Address," + ToStr(Or(Get(data, "vendorAddress"), Str("N/A")));
    UnlinesSnoc(lines, line); lines := lines + [line]; csv := csv + line + "\n";
    line := "Vendor GSTIN," + ToStr(Or(Get(data, "vendorGSTIN"), Str("N/A")));
    UnlinesSnoc(lines, line); lines := lines + [line]; csv := csv + line + "\n";
    line := "Customer Name," + ToStr(Or(Get(data, "customerName"), Str("N/A")));
    UnlinesSnoc(lines, line); lines := lines + [line]; csv := csv + line + "\n";
    assert lines == DetailLines(data);
  }

  /** services/excelService.js:84-94: the first block and the head of the second. */
  method StartCsv(data: Value) returns (csv: string)
    requires Accessible(data)
    ensures csv == Unlines(DetailLines(data) + ItemsHeader)
  {
    csv := DetailBlock(data);
    ghost var lines := DetailLines(data);
    var line := "";
    UnlinesSnoc(lines, line); lines := lines + [line]; csv := csv + line + "\n";
    line := "Line Items";
    UnlinesSnoc(lines, line); lines := lines + [line]; csv := csv + line + "\n";
    line := "Description,Quantity,Rate,Amount";
    UnlinesSnoc(lines, line); lines := lines + [line]; csv := csv + line + "\n";
    assert lines == DetailLines(data) + ItemsHeader;
  }

  /** services/excelService.js:96-100: one `+=` per line item, in order; a null item throws. */
  method AppendItemRows(csv: string, ghost before: seq<string>, items: seq<Value>) returns (r: Result<string>)
    requires csv == Unlines(before)
    ensures r.Ok? <==> AllAccessible(items)
    ensures r.Ok? ==> r.value == Unlines(before + ItemRows(items))
    ensures r.Err? ==> r.error == ItemError(items)
  {
    var text := csv;
    var i := 0;
    assert before + ItemRows(items[..0]) == before;
    while i < |items|
      invariant 0 <= i <= |items|
      invariant AllAccessible(items[..i])
      invariant text == Unlines(before + ItemRows(items[..i]))
    {
      var item := items[i];
      if !Accessible(item) {
        assert !AllAccessible(items) by { assert !Accessible(items[i]); }
        FirstInaccessibleAt(items, i);
        return Err(ReadError(item, "description"));
      }
      text := AddItemLine(text, before, items[..i], item);
      assert items[..i + 1] == items[..i] + [item];
      i := i + 1;
    }
    assert items[..i] == items;
    r := Ok(text);
  }

  /** One `+=` of the forEach body. */
  method AddItemLine(text: string, ghost before: seq<string>, ghost done: seq<Value>, item: Value) returns (next: string)
    requires AllAccessible(done) && Accessible(item)
    requires text == Unlines(before + ItemRows(done))
    ensures AllAccessible(done + [item])
    ensures next == Unlines(before + ItemRows(done + [item]))
  {
    var line := ItemRow(item);
    ItemRowsSnoc(done, item);
    UnlinesSnoc(before + ItemRows(done), line);
    assert before + ItemRows(done + [item]) == before + ItemRows(done) + [line];
    next := text + line + "\n";
  }

  /** services/excelService.js:102-109: the third block, one `+=` per line. */
  method FinishCsv(csv: string, data: Value) returns (text: string)
    requires Accessible(data)
    ensures text == csv + Unlines(FinancialLines(data))
  {
    ghost var lines: seq<string> := [];
    var tail := "";
    var line := "";
    UnlinesSnoc(lines, line); lines := lines + [line]; tail := tail + line + "\n";
    line := "Financial Summary";
    UnlinesSnoc(lines, line); lines := lines + [line]; tail := tail + line + "\n";
    line := "Subtotal," + ToStr(Get(data, "subtotal"));
    UnlinesSnoc(lines, line); lines := lines + [line]; tail := tail + line + "\n";
    line := "CGST," + ToStr(Or(Get(data, "cgst"), Num(0)));
    UnlinesSnoc(lines, line); lines := lines + [line]; tail := tail + line + "\n";
    line := "SGST," + ToStr(Or(Get(data, "sgst"), Num(0)));
    UnlinesSnoc(lines, line); lines := lines + [line]; tail := tail + line + "\n";
    line := "IGST," + ToStr(Or(Get(data, "igst"), Num(0)));
    UnlinesSnoc(lines, line); lines := lines + [line]; tail := tail + line + "\n";
    line := "Total Amount," + ToStr(Get(data, "totalAmount"));
    UnlinesSnoc(lines, line); lines := lines + [line]; tail := tail + line + "\n";
    line := "Currency," + ToStr(Get(data, "currency"));
    UnlinesSnoc(lines, line); lines := lines + [line]; tail := tail + line + "\n";
    assert lines == FinancialLines(data);
    text := csv + tail;
  }

  /**
   * The string generateCSV accumulates before writing it: the three blocks in
   * order, the items block walked only when `lineItems` is non-empty.
   */
  method GenerateCsvContent(data: Value) returns (r: Result<string>)
    ensures r == CsvText(data)
  {
    if !Accessible(data) {
      return Err(ReadError(data, "invoiceNumber"));
    }
    var csv := StartCsv(data);
    var lineItems := Get(data, "lineItems");
    var items: seq<Value> := [];
    if HasItems(lineItems) {
      if !lineItems.Arr? {
        return Err(NotAFunction("forEach"));
      }
      items := lineItems.items;
    }
    assert ItemsToVisit(lineItems) == Some(items);
    var withItems := AppendItemRows(csv, DetailLines(data) + ItemsHeader, items);
    if withItems.Err? {
      return Err(withItems.error);
    }
    var text := FinishCsv(withItems.value, data);
    UnlinesAppend(DetailLines(data) + ItemsHeader + ItemRows(items), FinancialLines(data));
    r := Ok(text);
  }

  // ---------------------------------------------------------------------------
  // What the CSV text promises

  /**
   * The layout of the CSV text: the title line, six key,value lines in fixed
   * order, one blank line, the items title and column line, one line per item
   * in input order, one blank line, the summary title and six key,value lines
   * ending with the currency. Address, GSTIN and customer read N/A when falsy;
   * the three taxes read 0 when falsy.
   */
  lemma CsvLayout(data: Value)
    requires CsvLines(data).Ok?
    ensures var lines := CsvLines(data).value;
      var items := ItemsToVisit(Get(data, "lineItems")).value;
      var n := |items|;
      AllAccessible(items) && |lines| == 18 + n &&
      lines[0] == "Invoice Details" &&
      lines[1] == "Invoice Number," + ToStr(Get(data, "invoiceNumber")) &&
      lines[2] == "Invoice Date," + ToStr(Get(data, "invoiceDate")) &&
      lines[3] == "Vendor Name," + ToStr(Get(data, "vendorName")) &&
      lines[4] == "Vendor Address," + (if Truthy(Get(data, "vendorAddress")) then ToStr(Get(data, "vendorAddress")) else "N/A") &&
      lines[5] == "Vendor GSTIN," + (if Truthy(Get(data, "vendorGSTIN")) then ToStr(Get(data, "vendorGSTIN")) else "N/A") &&
      lines[6] == "Customer Name," + (if Truthy(Get(data, "customerName")) then ToStr(Get(data, "customerName")) else "N/A") &&
      lines[7] == "" && lines[8] == "Line Items" && lines[9] == "Description,Quantity,Rate,Amount" &&
      (forall j :: 0 <= j < n ==> lines[10 + j] == ItemRow(items[j])) &&
      lines[10 + n] == "" && lines[11 + n] == "Financial Summary" &&
      lines[12 + n] == "Subtotal," + ToStr(Get(data, "subtotal")) &&
      lines[13 + n] == "CGST," + (if Truthy(Get(data, "cgst")) then ToStr(Get(data, "cgst")) else "0") &&
      lines[14 + n] == "SGST," + (if Truthy(Get(data, "sgst")) then ToStr(Get(data, "sgst")) else "0") &&
      lines[15 + n] == "IGST," + (if Truthy(Get(data, "igst")) then ToStr(Get(data, "igst")) else "0") &&
      lines[16 + n] == "Total Amount," + ToStr(Get(data, "totalAmount")) &&
      lines[17 + n] == "Currency," + ToStr(Get(data, "currency"))
  {
    CsvHeadLayout(data);
    CsvItemLines(data);
    CsvTailLayout(data);
  }

  lemma CsvHeadLayout(data: Value)
    requires CsvLines(data).Ok?
    ensures var lines := CsvLines(data).value;
      |lines| >= 10 &&
      lines[0] == "Invoice Details" &&
      lines[1] == "Invoice Number," + ToStr(Get(data, "invoiceNumber")) &&
      lines[2] == "Invoice Date," + ToStr(Get(data, "invoiceDate")) &&
      lines[3] == "Vendor Name," + ToStr(Get(data, "vendorName")) &&
      lines[4] == "Vendor Address," + (if Truthy(Get(data, "vendorAddress")) then ToStr(Get(data, "vendorAddress")) else "N/A") &&
      lines[5] == "Vendor GSTIN," + (if Truthy(Get(data, "vendorGSTIN")) then ToStr(Get(data, "vendorGSTIN")) else "N/A") &&
      lines[6] == "Customer Name," + (if Truthy(Get(data, "customerName")) then ToStr(Get(data, "customerName")) else "N/A") &&
      lines[7] == "" && lines[8] == "Line Items" && lines[9] == "Description,Quantity,Rate,Amount"
  {
    CsvShape(data);
    assert CsvLines(data).value[..10] == DetailLines(data) + ItemsHeader;
  }

  lemma CsvItemLines(data: Value)
    requires CsvLines(data).Ok?
    ensures var lines := CsvLines(data).value;
      var items := ItemsToVisit(Get(data, "lineItems")).value;
      AllAccessible(items) && |lines| == 18 + |items| &&
      forall j :: 0 <= j < |items| ==> lines[10 + j] == ItemRow(items[j])
  {
    CsvShape(data);
    var items := ItemsToVisit(Get(data, "lineItems")).value;
    var lines := CsvLines(data).value;
    var rows := ItemRows(items);
    assert lines[10..10 + |items|] == rows;
    forall j | 0 <= j < |items|
      ensures lines[10 + j] == ItemRow(items[j])
    {
      assert lines[10 + j] == lines[10..10 + |items|][j];
    }
  }

  lemma CsvTailLayout(data: Value)
    requires CsvLines(data).Ok?
    ensures var lines := CsvLines(data).value;
      var n := |ItemsToVisit(Get(data, "lineItems")).value|;
      |lines| == 18 + n &&
      lines[10 + n] == "" && lines[11 + n] == "Financial Summary" &&
      lines[12 + n] == "Subtotal," + ToStr(Get(data, "subtotal")) &&
      lines[13 + n] == "CGST," + (if Truthy(Get(data, "cgst")) then ToStr(Get(data, "cgst")) else "0") &&
      lines[14 + n] == "SGST," + (if Truthy(Get(data, "sgst")) then ToStr(Get(data, "sgst")) else "0") &&
      lines[15 + n] == "IGST," + (if Truthy(Get(data, "igst")) then ToStr(Get(data, "igst")) else "0") &&
      lines[16 + n] == "Total Amount," + ToStr(Get(data, "totalAmount")) &&
      lines[17 + n] == "Currency," + ToStr(Get(data, "currency"))
  {
    CsvShape(data);
    var n := |ItemsToVisit(Get(data, "lineItems")).value|;
    assert CsvLines(data).value[10 + n..] == FinancialLines(data);
  }

  /** The lines of a CSV text that can be built: the three blocks, in order. */
  lemma CsvShape(data: Value)
    requires CsvLines(data).Ok?
    ensures Accessible(data) && ItemsToVisit(Get(data, "lineItems")).Some?
    ensures var items := ItemsToVisit(Get(data, "lineItems")).value;
      AllAccessible(items) &&
      CsvLines(data).value == DetailLines(data) + ItemsHeader + ItemRows(items) + FinancialLines(data) &&
      |CsvLines(data).value| == 18 + |items|
  {
  }

  /**
   * The failures of the CSV lines: data is null or undefined, lineItems passes
   * the guard but has no forEach, or an item is null or undefined. Template
   * literals that throw are outside this model (see JsValue.ToStr).
   */
  lemma CsvFailures(data: Value)
    ensures CsvLines(data).Err? <==>
      !Accessible(data) ||
      (HasItems(Get(data, "lineItems")) && !Get(data, "lineItems").Arr?) ||
      (HasItems(Get(data, "lineItems")) && Get(data, "lineItems").Arr? && !AllAccessible(Get(data, "lineItems").items))
  {
  }

  /** Without line items the text still has the items title and column line, and no item line. */
  lemma CsvWithoutItems(data: Value)
    requires Accessible(data) && !HasItems(Get(data, "lineItems"))
    ensures CsvLines(data) == Ok(DetailLines(data) + ItemsHeader + FinancialLines(data))
  {
    assert ItemsToVisit(Get(data, "lineItems")) == Some([]);
    assert ItemRows([]) == [];
    assert DetailLines(data) + ItemsHeader + [] == DetailLines(data) + ItemsHeader;
  }

  /** The text ends with the currency line. */
  lemma CsvEndsWithCurrency(data: Value)
    requires CsvText(data).Ok?
    ensures var suffix := "Currency," + ToStr(Get(data, "currency")) + "\n";
      var text := CsvText(data).value;
      |suffix| <= |text| && text[|text| - |suffix|..] == suffix
  {
    CsvShape(data);
    var lines := CsvLines(data).value;
    var items := ItemsToVisit(Get(data, "lineItems")).value;
    var fin := FinancialLines(data);
    assert lines == (DetailLines(data) + ItemsHeader + ItemRows(items)) + fin;
    assert lines[|lines| - 1] == fin[7];
    UnlinesEndsWithLast(lines);
  }

  /** The joined text ends with its last line and a newline. */
  lemma UnlinesEndsWithLast(lines: seq<string>)
    requires lines != []
    ensures var suffix := lines[|lines| - 1] + "\n";
      var text := Unlines(lines);
      |suffix| <= |text| && text[|text| - |suffix|..] == suffix
  {
    var init := lines[..|lines| - 1];
    var last := lines[|lines| - 1];
    assert lines == init + [last];
    UnlinesSnoc(init, last);
    var suffix := last + "\n";
    assert (Unlines(init) + last + "\n") == Unlines(init) + suffix;
  }

  /**
   * When no value holds a newline, splitting the text at newlines gives back
   * the blocks line by line: the item lines are one text line each.
   */
  lemma CsvTextSplitsIntoLines(data: Value)
    requires CsvLines(data).Ok?
    requires forall i :: 0 <= i < |CsvLines(data).value| ==> NoNewline(CsvLines(data).value[i])
    ensures Lines(CsvText(data).value) == CsvLines(data).value
  {
    LinesUnlines(CsvLines(data).value);
  }

  /** RFC 4180 quoting of a field: every double quote doubled, the whole field in double quotes. */
  function Rfc4180Quote(s: string): (q: string)
    ensures |q| >= |s| + 2
  {
    "\"" + DoubleQuotes(s) + "\""
  }

  function DoubleQuotes(s: string): (r: string)
    ensures |r| >= |s|
  {
    if s == [] then "" else (if s[0] == '"' then "\"\"" else [s[0]]) + DoubleQuotes(s[1..])
  }

  /** Quote doubling lengthens any text that holds a double quote. */
  lemma {:induction false} DoubleQuotesLengthens(s: string, i: nat)
    requires i < |s| && s[i] == '"'
    ensures |DoubleQuotes(s)| > |s|
  {
    if i > 0 {
      DoubleQuotesLengthens(s[1..], i - 1);
    }
  }

  /**
   * The description is wrapped in double quotes as it is: an embedded double
   * quote is not doubled, so for such a description the item line does not
   * begin with the quoting of section 2 of RFC 4180.
   */
  lemma DescriptionQuoteNotEscaped(item: Value, i: nat)
    requires Accessible(item) && Get(item, "description").Str?
    requires i < |Get(item, "description").s| && Get(item, "description").s[i] == '"'
    ensures var d := Get(item, "description").s;
      |ItemRow(item)| >= |d| + 2 && ItemRow(item)[..|d| + 2] == "\"" + d + "\"" &&
      Rfc4180Quote(d) != "\"" + d + "\""
  {
    var d := Get(item, "description").s;
    var rest := "," + ToStr(Get(item, "quantity")) + "," + ToStr(Get(item, "rate")) + "," + ToStr(Get(item, "amount"));
    ItemRowQuotesDescription(item, d);
    PrefixOfConcat("\"" + d + "\"", rest);
    RfcQuoteDiffers(d, i);
  }

  /** The item line is the description between two double quotes, then the other three fields. */
  lemma ItemRowQuotesDescription(item: Value, d: string)
    requires Accessible(item) && Get(item, "description") == Str(d)
    ensures ItemRow(item) == "\"" + d + "\"" + ("," + ToStr(Get(item, "quantity")) + "," + ToStr(Get(item, "rate")) + "," + ToStr(Get(item, "amount")))
  {
    assert "\"," == "\"" + ",";
  }

  lemma PrefixOfConcat(q: string, rest: string)
    ensures (q + rest)[..|q|] == q
  {
  }

  /** A text holding a double quote is not RFC 4180 quoted by wrapping it in double quotes. */
  lemma RfcQuoteDiffers(d: string, i: nat)
    requires i < |d| && d[i] == '"'
    ensures Rfc4180Quote(d) != "\"" + d + "\""
  {
    DoubleQuotesLengthens(d, i);
  }

  lemma ExampleNumbers()
    ensures ToStr(Num(2)) == "2" && ToStr(Num(50)) == "50" && ToStr(Num(100)) == "100" && ToStr(Num(118)) == "118"
  {
    assert NatStr(50) == NatStr(5) + [Digit(0)];
    assert NatStr(10) == NatStr(1) + [Digit(0)];
    assert NatStr(100) == NatStr(10) + [Digit(0)];
    assert NatStr(11) == NatStr(1) + [Digit(1)];
    assert NatStr(118) == NatStr(11) + [Digit(8)];
  }

  const WidgetItem := Obj(map["description" := Str("Widget"), "quantity" := Num(2), "rate" := Num(50), "amount" := Num(100)])

  lemma WidgetRow()
    ensures ItemRow(WidgetItem) == "\"Widget\",2,50,100"
  {
    ExampleNumbers();
    assert Get(WidgetItem, "description") == Str("Widget");
    assert Get(WidgetItem, "quantity") == Num(2);
    assert Get(WidgetItem, "rate") == Num(50);
    assert Get(WidgetItem, "amount") == Num(100);
  }

  /** A worked invoice, one widget line and a total of 118: its item line and its total line. */
  lemma CsvWidgetExample(data: Value)
    requires Accessible(data) && Get(data, "lineItems") == Arr([WidgetItem]) && Get(data, "totalAmount") == Num(118)
    ensures CsvLines(data).Ok? && |CsvLines(data).value| == 19
    ensures CsvLines(data).value[10] == "\"Widget\",2,50,100"
    ensures CsvLines(data).value[17] == "Total Amount,118"
  {
    CsvOneItem(data, WidgetItem);
    TotalLine();
    WidgetRow();
  }

  lemma TotalLine()
    ensures "Total Amount," + ToStr(Num(118)) == "Total Amount,118"
  {
    ExampleNumbers();
  }

  /** An invoice with a single line item: nineteen lines, the item on the eleventh. */
  lemma CsvOneItem(data: Value, item: Value)
    requires Accessible(data) && Accessible(item) && Get(data, "lineItems") == Arr([item])
    ensures CsvLines(data).Ok? && |CsvLines(data).value| == 19
    ensures CsvLines(data).value[10] == ItemRow(item)
    ensures CsvLines(data).value[17] == "Total Amount," + ToStr(Get(data, "totalAmount"))
  {
    assert ItemsToVisit(Get(data, "lineItems")) == Some([item]);
    CsvItemLines(data);
    CsvTailLayout(data);
  }

  // ---------------------------------------------------------------------------
  // generateExcel: the arrays of rows handed to the spreadsheet library

  datatype Sheet = Sheet(name: string, rows: seq<seq<Value>>)

  /** The fifteen rows of the Summary sheet, the eighth a single empty cell. */
  function SummaryRows(data: Value): (rows: seq<seq<Value>>)
    requires Accessible(data)
    ensures |rows| == 15 && |rows[7]| == 1 && forall k :: 0 <= k < 15 && k != 7 ==> |rows[k]| == 2
  {
    [ [Str("Invoice Details"), Str("")],
      [Str("Invoice Number"), Get(data, "invoiceNumber")],
      [Str("Invoice Date"), Get(data, "invoiceDate")],
      [Str("Vendor Name"), Get(data, "vendorName")],
      [Str("Vendor Address"), Or(Get(data, "vendorAddress"), Str("N/A"))],
      [Str("Vendor GSTIN"), Or(Get(data, "vendorGSTIN"), Str("N/A"))],
      [Str("Customer Name"), Or(Get(data, "customerName"), Str("N/A"))],
      [Str("")],
      [Str("Financial Summary"), Str("")],
      [Str("Subtotal"), Get(data, "subtotal")],
      [Str("CGST"), Or(Get(data, "cgst"), Num(0))],
      [Str("SGST"), Or(Get(data, "sgst"), Num(0))],
      [Str("IGST"), Or(Get(data, "igst"), Num(0))],
      [Str("Total Amount"), Get(data, "totalAmount")],
      [Str("Currency"), Get(data, "currency")] ]
  }

  const SummaryLabels: seq<string> := [
    "Invoice Details", "Invoice Number", "Invoice Date", "Vendor Name", "Vendor Address",
    "Vendor GSTIN", "Customer Name", "", "Financial Summary", "Subtotal", "CGST", "SGST",
    "IGST", "Total Amount", "Currency"]

  const ItemColumns: seq<Value> := [Str("Description"), Str("Quantity"), Str("Rate"), Str("Amount")]

  function ItemCells(item: Value): seq<Value>
    requires Accessible(item)
  {
    [Get(item, "description"), Get(item, "quantity"), Get(item, "rate"), Get(item, "amount")]
  }

  /** The Line Items sheet's rows: the column header, then `lineItems.map(...)`. */
  function ItemTable(items: seq<Value>): (rows: seq<seq<Value>>)
    requires AllAccessible(items)
    ensures |rows| == |items| + 1 && rows[0] == ItemColumns
    ensures forall j :: 0 <= j < |items| ==> |rows[j + 1]| == 4 && rows[j + 1][0] == Get(items[j], "description")
  {
    [ItemColumns] + seq(|items|, i requires 0 <= i < |items| => ItemCells(items[i]))
  }

  /** The sheets generateExcel appends, in order, or the error it throws. */
  function Workbook(data: Value): (r: Result<seq<Sheet>>)
    ensures r.Ok? <==> CsvLines(data).Ok?
    ensures r.Ok? ==> 1 <= |r.value| <= 2 && r.value[0] == Sheet("Summary", SummaryRows(data))
    ensures r.Ok? ==> (|r.value| == 2 <==> HasItems(Get(data, "lineItems")))
  {
    if !Accessible(data) then Err(ReadError(data, "invoiceNumber"))
    else
      var lineItems := Get(data, "lineItems");
      match ItemsToVisit(lineItems)
      case None => Err(NotAFunction("map"))
      case Some(items) =>
        if !AllAccessible(items) then Err(ItemError(items))
        else if HasItems(lineItems) then
          Ok([Sheet("Summary", SummaryRows(data)), Sheet("Line Items", ItemTable(items))])
        else Ok([Sheet("Summary", SummaryRows(data))])
  }

  /**
   * The Summary sheet always has fifteen rows in fixed order; the eighth is one
   * empty cell, every other a label and a value. The two titles have an empty
   * value; address, GSTIN and customer read N/A and the three taxes 0 when
   * falsy; the other fields are shown as they are, absent ones as undefined.
   */
  lemma SummaryLayout(data: Value)
    requires Accessible(data)
    ensures var rows := SummaryRows(data);
      |rows| == 15 && rows[7] == [Str("")] &&
      forall k :: 0 <= k < 15 && k != 7 ==> |rows[k]| == 2 && rows[k][0] == Str(SummaryLabels[k])
    ensures var rows := SummaryRows(data);
      |rows| == 15 && rows[0][1] == Str("") && rows[8][1] == Str("") &&
      rows[1][1] == Get(data, "invoiceNumber") && rows[2][1] == Get(data, "invoiceDate") &&
      rows[3][1] == Get(data, "vendorName") && rows[9][1] == Get(data, "subtotal") &&
      rows[13][1] == Get(data, "totalAmount") && rows[14][1] == Get(data, "currency")
    ensures var rows := SummaryRows(data);
      |rows| == 15 &&
      rows[4][1] == (if Truthy(Get(data, "vendorAddress")) then Get(data, "vendorAddress") else Str("N/A")) &&
      rows[5][1] == (if Truthy(Get(data, "vendorGSTIN")) then Get(data, "vendorGSTIN") else Str("N/A")) &&
      rows[6][1] == (if Truthy(Get(data, "customerName")) then Get(data, "customerName") else Str("N/A")) &&
      rows[10][1] == (if Truthy(Get(data, "cgst")) then Get(data, "cgst") else Num(0)) &&
      rows[11][1] == (if Truthy(Get(data, "sgst")) then Get(data, "sgst") else Num(0)) &&
      rows[12][1] == (if Truthy(Get(data, "igst")) then Get(data, "igst") else Num(0))
  {
    SummaryLabelCells(data);
    SummaryValueCells(data);
    SummaryDefaultCells(data);
  }

  lemma SummaryLabelCells(data: Value)
    requires Accessible(data)
    ensures var rows := SummaryRows(data);
      |rows| == 15 && rows[7] == [Str("")] &&
      forall k :: 0 <= k < 15 && k != 7 ==> |rows[k]| == 2 && rows[k][0] == Str(SummaryLabels[k])
  {
  }

  lemma SummaryValueCells(data: Value)
    requires Accessible(data)
    ensures var rows := SummaryRows(data);
      |rows| == 15 && rows[0][1] == Str("") && rows[8][1] == Str("") &&
      rows[1][1] == Get(data, "invoiceNumber") && rows[2][1] == Get(data, "invoiceDate") &&
      rows[3][1] == Get(data, "vendorName") && rows[9][1] == Get(data, "subtotal") &&
      rows[13][1] == Get(data, "totalAmount") && rows[14][1] == Get(data, "currency")
  {
  }

  lemma SummaryDefaultCells(data: Value)
    requires Accessible(data)
    ensures var rows := SummaryRows(data);
      |rows| == 15 &&
      rows[4][1] == (if Truthy(Get(data, "vendorAddress")) then Get(data, "vendorAddress") else Str("N/A")) &&
      rows[5][1] == (if Truthy(Get(data, "vendorGSTIN")) then Get(data, "vendorGSTIN") else Str("N/A")) &&
      rows[6][1] == (if Truthy(Get(data, "customerName")) then Get(data, "customerName") else Str("N/A")) &&
      rows[10][1] == (if Truthy(Get(data, "cgst")) then Get(data, "cgst") else Num(0)) &&
      rows[11][1] == (if Truthy(Get(data, "sgst")) then Get(data, "sgst") else Num(0)) &&
      rows[12][1] == (if Truthy(Get(data, "igst")) then Get(data, "igst") else Num(0))
  {
  }

  /** The Line Items sheet, when present, is the column header and then one row per item, in input order. */
  lemma LineItemsSheetLayout(data: Value)
    requires Workbook(data).Ok? && |Workbook(data).value| == 2
    ensures var items := Get(data, "lineItems").items;
      var sheet := Workbook(data).value[1];
      Get(data, "lineItems").Arr? && sheet.name == "Line Items" &&
      |sheet.rows| == 1 + |items| && sheet.rows[0] == ItemColumns &&
      forall j :: 0 <= j < |items| ==> sheet.rows[1 + j] == [
        Get(items[j], "description"), Get(items[j], "quantity"), Get(items[j], "rate"), Get(items[j], "amount")]
  {
  }

  /** A Summary row as a CSV key,value line. */
  function PairLine(row: seq<Value>): string
    requires |row| == 2
  {
    ToStr(row[0]) + "," + ToStr(row[1])
  }

  /** An item row of the workbook as a CSV line: the description quoted, the rest bare. */
  function ItemLine(cells: seq<Value>): string
    requires |cells| == 4
  {
    "\"" + ToStr(cells[0]) + "\"," + ToStr(cells[1]) + "," + ToStr(cells[2]) + "," + ToStr(cells[3])
  }

  /**
   * Both exporters carry the same summary: every key,value line of the CSV
   * text is the corresponding Summary row of the workbook, with the same
   * defaults, and the block titles match. `n` is the number of lines between
   * the two blocks: the items title, the column line and one line per item.
   */
  lemma SummaryAgrees(data: Value)
    requires CsvLines(data).Ok?
    ensures var lines := CsvLines(data).value;
      var rows := SummaryRows(data);
      var n := |lines| - 15;
      n >= 3 &&
      lines[0] == ToStr(rows[0][0]) &&
      (forall k :: 1 <= k <= 6 ==> |rows[k]| == 2 && lines[k] == PairLine(rows[k])) &&
      lines[8 + n] == ToStr(rows[8][0]) &&
      (forall k :: 9 <= k <= 14 ==> |rows[k]| == 2 && lines[k + n] == PairLine(rows[k]))
  {
    CsvShape(data);
    var items := ItemsToVisit(Get(data, "lineItems")).value;
    LinesAsPairs(data, ItemRows(items));
  }

  /** SummaryAgrees for the two blocks around the items title, the column line and any item lines, without unfolding CsvLines. */
  lemma LinesAsPairs(data: Value, itemLines: seq<string>)
    requires Accessible(data)
    ensures var lines := DetailLines(data) + ItemsHeader + itemLines + FinancialLines(data);
      var rows := SummaryRows(data);
      var m := 3 + |itemLines|;
      |lines| == 15 + m &&
      lines[0] == ToStr(rows[0][0]) &&
      (forall k :: 1 <= k <= 6 ==> |rows[k]| == 2 && lines[k] == PairLine(rows[k])) &&
      lines[8 + m] == ToStr(rows[8][0]) &&
      (forall k :: 9 <= k <= 14 ==> |rows[k]| == 2 && lines[k + m] == PairLine(rows[k]))
  {
    var lines := DetailLines(data) + ItemsHeader + itemLines + FinancialLines(data);
    DetailsAsPairs(data);
    FinancialAsPairs(data);
    forall k | 1 <= k <= 6
      ensures lines[k] == DetailLines(data)[k]
    {
    }
    forall j | 2 <= j <= 7
      ensures lines[10 + |itemLines| + j] == FinancialLines(data)[j]
    {
    }
  }

  lemma DetailsAsPairs(data: Value)
    requires Accessible(data)
    ensures forall k :: 1 <= k <= 6 ==> |SummaryRows(data)[k]| == 2 && DetailLines(data)[k] == PairLine(SummaryRows(data)[k])
  {
    DetailLabelsWithComma();
  }

  lemma DetailLabelsWithComma()
    ensures "Invoice Number" + "," == "Invoice Number," &&
      "Invoice Date" + "," == "Invoice Date," &&
      "Vendor Name" + "," == "Vendor Name," &&
      "Vendor Address" + "," == "Vendor Address," &&
      "Vendor GSTIN" + "," == "Vendor GSTIN," &&
      "Customer Name" + "," == "Customer Name,"
  {
  }

  lemma FinancialAsPairs(data: Value)
    requires Accessible(data)
    ensures forall k :: 9 <= k <= 14 ==> |SummaryRows(data)[k]| == 2 && FinancialLines(data)[k - 7] == PairLine(SummaryRows(data)[k])
  {
    FinancialLabelsWithComma();
  }

  lemma FinancialLabelsWithComma()
    ensures "Subtotal" + "," == "Subtotal," &&
      "CGST" + "," == "CGST," &&
      "SGST" + "," == "SGST," &&
      "IGST" + "," == "IGST," &&
      "Total Amount" + "," == "Total Amount," &&
      "Currency" + "," == "Currency,"
  {
  }

  /**
   * Both exporters carry the same items: the CSV has an item line exactly when
   * the workbook has a Line Items sheet, and each item line is that sheet's row
   * for the same item.
   */
  lemma ItemsAgree(data: Value)
    requires CsvLines(data).Ok?
    ensures var lines := CsvLines(data).value;
      var items := ItemsToVisit(Get(data, "lineItems")).value;
      AllAccessible(items) && |lines| == 18 + |items| &&
      (|items| > 0 <==> |Workbook(data).value| == 2) &&
      forall j :: 0 <= j < |items| ==> lines[10 + j] == ItemLine(ItemCells(items[j]))
  {
    CsvItemLines(data);
    var items := ItemsToVisit(Get(data, "lineItems")).value;
    forall j | 0 <= j < |items|
      ensures ItemLine(ItemCells(items[j])) == ItemRow(items[j])
    {
      ItemLineIsItemRow(items[j]);
    }
  }

  lemma ItemLineIsItemRow(item: Value)
    requires Accessible(item)
    ensures ItemLine(ItemCells(item)) == ItemRow(item)
  {
  }

  // ---------------------------------------------------------------------------
  // The written files

  /** `fileName = 'invoice'` as a default parameter: only an undefined argument is replaced. */
  function BaseName(fileName: Value): (name: Value)
    ensures !name.Undefined?
    ensures !fileName.Undefined? ==> name == fileName
  {
    if fileName.Undefined? then Str("invoice") else fileName
  }

  /** `${fileName}-${timestamp}.xlsx` or `.csv`: the name later joined to the exports directory. */
  function ExportPath(fileName: Value, now: nat, ext: string): (path: string)
    ensures |path| > |ext| && path[|path| - |ext|..] == ext
    ensures var stamp := NatStr(now);
      |path| > |stamp| + |ext| &&
      path[|path| - |ext| - |stamp|..|path| - |ext|] == stamp && path[|path| - |ext| - |stamp| - 1] == '-'
    ensures fileName.Undefined? ==> |path| >= 8 && path[..8] == "invoice-"
    ensures fileName.Str? ==> |path| > |fileName.s| && path[..|fileName.s| + 1] == fileName.s + "-"
  {
    ToStr(BaseName(fileName)) + "-" + NatStr(now) + ext
  }

  /** Two exports of the same name at different milliseconds go to different files. */
  lemma ExportPathDistinct(fileName: Value, t1: nat, t2: nat, ext: string)
    requires t1 != t2
    ensures ExportPath(fileName, t1, ext) != ExportPath(fileName, t2, ext)
  {
    var prefix := ToStr(BaseName(fileName)) + "-";
    var n1, n2 := NatStr(t1), NatStr(t2);
    var p1, p2 := ExportPath(fileName, t1, ext), ExportPath(fileName, t2, ext);
    assert p1 == prefix + n1 + ext && p2 == prefix + n2 + ext;
    assert p1[|prefix|..|prefix| + |n1|] == n1;
    assert p2[|prefix|..|prefix| + |n2|] == n2;
    NatStrRoundTrip(t1);
    NatStrRoundTrip(t2);
  }

  datatype ExportFile = XlsxFile(path: string, sheets: seq<Sheet>) | CsvFile(path: string, text: string)

  /**
   * generateExcel: `now` is Date.now() and `written` whether the library wrote
   * the file. Every failure is rethrown as one generic Error.
   */
  function GenerateExcel(data: Value, fileName: Value, now: nat, written: bool): (r: Result<ExportFile>)
    ensures r.Ok? <==> Workbook(data).Ok? && written
    ensures r.Ok? ==> r.value == XlsxFile(ExportPath(fileName, now, ".xlsx"), Workbook(data).value)
    ensures r.Err? ==> r.error == ExcelFailure
  {
    match Workbook(data)
    case Err(_) => Err(ExcelFailure)
    case Ok(sheets) =>
      if written then Ok(XlsxFile(ExportPath(fileName, now, ".xlsx"), sheets)) else Err(ExcelFailure)
  }

  /** generateCSV: builds the text, then writes it; every failure is rethrown as one generic Error. */
  method GenerateCsv(data: Value, fileName: Value, now: nat, written: bool) returns (r: Result<ExportFile>)
    ensures r.Ok? <==> CsvText(data).Ok? && written
    ensures r.Ok? ==> r.value == CsvFile(ExportPath(fileName, now, ".csv"), CsvText(data).value)
    ensures r.Err? ==> r.error == CsvFailure
  {
    var content := GenerateCsvContent(data);
    if content.Err? || !written {
      return Err(CsvFailure);
    }
    r := Ok(CsvFile(ExportPath(fileName, now, ".csv"), content.value));
  }
}

=== FILE: GeminiService.dfy ===
/**
 * The part of extractInvoiceData that does not talk to the network: the reply
 * text is trimmed, Markdown code fences are stripped from it, the parsed JSON
 * is normalised into a fully defaulted fourteen-field invoice record.
 */
module GeminiService {
  import opened Wrappers
  import opened JsValue

  // ---------------------------------------------------------------------------
  // String.prototype.trim

  /** WhiteSpace and LineTerminator code points of ECMAScript, the set trim() removes. */
  predicate IsJsSpace(c: char)
  {
    var k := c as int;
    k == 0x09 || k == 0x0A || k == 0x0B || k == 0x0C || k == 0x0D || k == 0x20 ||
    k == 0xA0 || k == 0x1680 || (0x2000 <= k <= 0x200A) || k == 0x2028 || k == 0x2029 ||
    k == 0x202F || k == 0x205F || k == 0x3000 || k == 0xFEFF
  }

  predicate AllSpace(s: string)
  {
    forall i :: 0 <= i < |s| ==> IsJsSpace(s[i])
  }

  function TrimStart(s: string): (r: string)
    ensures |r| <= |s| && r == s[|s| - |r|..] && AllSpace(s[..|s| - |r|])
    ensures r == [] || !IsJsSpace(r[0])
  {
    if |s| > 0 && IsJsSpace(s[0]) then
      var r := TrimStart(s[1..]);
      SpaceBeforeSuffix(s, r);
      r
    else s
  }

  /** One more leading space in front of a space-padded suffix. */
  lemma SpaceBeforeSuffix(s: string, r: string)
    requires |s| > 0 && IsJsSpace(s[0])
    requires |r| <= |s| - 1 && r == s[1..][|s| - 1 - |r|..] && AllSpace(s[1..][..|s| - 1 - |r|])
    ensures r == s[|s| - |r|..] && AllSpace(s[..|s| - |r|])
  {
    var n := |s| - |r|;
    assert s[1..][n - 1..] == s[n..];
    forall i | 0 <= i < n
      ensures IsJsSpace(s[..n][i])
    {
      if i > 0 {
        assert s[..n][i] == s[1..][..n - 1][i - 1];
      }
    }
  }

  function TrimEnd(s: string): (r: string)
    ensures |r| <= |s| && r == s[..|r|] && AllSpace(s[|r|..])
    ensures r == [] || !IsJsSpace(r[|r| - 1])
  {
    if |s| > 0 && IsJsSpace(s[|s| - 1]) then
      var r := TrimEnd(s[..|s| - 1]);
      SpaceAfterPrefix(s, r);
      r
    else s
  }

  /** One more trailing space behind a space-padded prefix. */
  lemma SpaceAfterPrefix(s: string, r: string)
    requires |s| > 0 && IsJsSpace(s[|s| - 1])
    requires |r| <= |s| - 1 && r == s[..|s| - 1][..|r|] && AllSpace(s[..|s| - 1][|r|..])
    ensures r == s[..|r|] && AllSpace(s[|r|..])
  {
    forall i | 0 <= i < |s| - |r|
      ensures IsJsSpace(s[|r|..][i])
    {
      if i < |s| - 1 - |r| {
        assert s[|r|..][i] == s[..|s| - 1][|r|..][i];
      }
    }
  }

  /** `s.trim()`: the longest run of s that neither starts nor ends with white space. */
  function Trim(s: string): (r: string)
    ensures r == [] || (!IsJsSpace(r[0]) && !IsJsSpace(r[|r| - 1]))
  {
    var t := TrimStart(s);
    var r := TrimEnd(t);
    TrimWitness(s, t, r);
    r
  }

  /** r sits at offset i of s, with only white space before and after it. */
  predicate PaddedRun(s: string, r: string, i: int)
  {
    0 <= i <= |s| - |r| && r == s[i..i + |r|] && AllSpace(s[..i]) && AllSpace(s[i + |r|..])
  }

  /** Trim cuts only white space, and from both ends: the result is a run of s padded by white space. */
  lemma TrimIsPaddedRun(s: string)
    ensures exists i :: PaddedRun(s, Trim(s), i)
  {
    var t := TrimStart(s);
    var r := TrimEnd(t);
    assert Trim(s) == r;
    TrimWitness(s, t, r);
    assert PaddedRun(s, r, |s| - |t|);
  }

  /** The slice arithmetic behind Trim's contract. */
  lemma TrimWitness(s: string, t: string, r: string)
    requires |t| <= |s| && t == s[|s| - |t|..] && AllSpace(s[..|s| - |t|])
    requires t == [] || !IsJsSpace(t[0])
    requires |r| <= |t| && r == t[..|r|] && AllSpace(t[|r|..])
    requires r == [] || !IsJsSpace(r[|r| - 1])
    ensures r == [] || (!IsJsSpace(r[0]) && !IsJsSpace(r[|r| - 1]))
    ensures var i := |s| - |t|;
      0 <= i <= |s| - |r| && r == s[i..i + |r|] && AllSpace(s[..i]) && AllSpace(s[i + |r|..])
  {
    var i := |s| - |t|;
    assert t[|r|..] == s[i + |r|..];
    if r != [] {
      assert r[0] == t[0];
    }
  }

  lemma TrimKeepsUnpadded(s: string)
    requires s != [] && !IsJsSpace(s[0]) && !IsJsSpace(s[|s| - 1])
    ensures Trim(s) == s
  {
  }

  // ---------------------------------------------------------------------------
  // The fence rewrite: s.replace(/<pat>\n?/g, '')

  predicate StartsWith(s: string, p: string)
  {
    |p| <= |s| && s[..|p|] == p
  }

  const Fence := "```"
  const JsonFence := "```json"

  /** No occurrence of `pat` starts before position k of s. */
  predicate NoMatchBefore(s: string, pat: string, k: int)
  {
    forall i {:trigger StartsWith(s[i..], pat)} :: 0 <= i < k && i <= |s| ==> !StartsWith(s[i..], pat)
  }

  predicate NoFence(s: string)
  {
    NoMatchBefore(s, Fence, |s|)
  }

  /**
   * A global replace of the literal `pat` followed by an optional newline with
   * the empty string: the leftmost match is removed first and scanning resumes
   * after it, so matches never overlap.
   */
  function RemoveAll(s: string, pat: string): (r: string)
    requires |pat| > 0
    ensures |r| <= |s|
    decreases |s|
  {
    if |s| == 0 then ""
    else if StartsWith(s, pat) then
      var rest := s[|pat|..];
      if |rest| > 0 && rest[0] == '\n' then RemoveAll(rest[1..], pat) else RemoveAll(rest, pat)
    else [s[0]] + RemoveAll(s[1..], pat)
  }

  /** The reply text as handed to JSON.parse. */
  function StripFences(text: string): (r: string)
    ensures |r| <= |Trim(text)|
  {
    var t := Trim(text);
    if StartsWith(t, JsonFence) then RemoveAll(RemoveAll(t, JsonFence), Fence)
    else if StartsWith(t, Fence) then RemoveAll(t, Fence)
    else t
  }

  lemma {:induction false} RemoveAllSkipsPrefix(s: string, pat: string, k: nat)
    requires |pat| > 0 && k <= |s| && NoMatchBefore(s, pat, k)
    ensures RemoveAll(s, pat) == s[..k] + RemoveAll(s[k..], pat)
    decreases k
  {
    if k == 0 {
      assert s[..0] + RemoveAll(s[0..], pat) == RemoveAll(s, pat) by {
        assert s[..0] == [] && s[0..] == s;
      }
    } else {
      NoMatchBeforeShift(s, pat, k);
      RemoveAllSkipsPrefix(s[1..], pat, k - 1);
      assert s[1..][k - 1..] == s[k..];
      KeepFirst(s, RemoveAll(s[1..], pat), RemoveAll(s[k..], pat), k);
    }
  }

  /** Putting the first character back in front of a kept prefix. */
  lemma KeepFirst(s: string, a: string, b: string, k: nat)
    requires 0 < k <= |s| && a == s[1..][..k - 1] + b
    ensures [s[0]] + a == s[..k] + b
  {
    assert [s[0]] + s[1..][..k - 1] == s[..k];
  }

  /** No match at the front: the first character is kept, and the rest of the prefix stays match-free. */
  lemma NoMatchBeforeShift(s: string, pat: string, k: nat)
    requires |pat| > 0 && 0 < k <= |s| && NoMatchBefore(s, pat, k)
    ensures NoMatchBefore(s[1..], pat, k - 1)
    ensures RemoveAll(s, pat) == [s[0]] + RemoveAll(s[1..], pat)
  {
    assert s[0..] == s;
    forall i | 0 <= i < k - 1 && i <= |s[1..]|
      ensures !StartsWith(s[1..][i..], pat)
    {
      assert s[1..][i..] == s[i + 1..];
    }
  }

  lemma RemoveAllUnmatched(s: string, pat: string)
    requires |pat| > 0 && NoMatchBefore(s, pat, |s|)
    ensures RemoveAll(s, pat) == s
  {
    RemoveAllSkipsPrefix(s, pat, |s|);
    assert s[..|s|] == s;
  }

  /** A fence inside the text is removed too, not only the outer ones. */
  lemma InnerFenceRemoved(a: string, b: string)
    requires NoMatchBefore(a + Fence + b, Fence, |a|)
    requires b == [] || b[0] != '\n'
    ensures RemoveAll(a + Fence + b, Fence) == a + RemoveAll(b, Fence)
  {
    var s := a + Fence + b;
    RemoveAllSkipsPrefix(s, Fence, |a|);
    assert s[..|a|] == a;
    assert s[|a|..] == Fence + b;
    assert (Fence + b)[|Fence|..] == b;
  }

  /** If t does not start with two backquotes, neither does what is left of it. */
  lemma {:induction false} NoDoubleTickAfterRemoval(t: string)
    requires !StartsWith(t, "``")
    ensures !StartsWith(RemoveAll(t, Fence), "``")
  {
    if |t| > 0 && !StartsWith(t, Fence) && t[0] == '`' && |t| > 1 {
      assert t[1] != '`' by { assert t[..2] != "``"; }
      assert !StartsWith(t[1..], Fence);
    }
  }

  /** A backquote that does not open a fence is not followed by two more. */
  lemma TickNotFence(s: string)
    requires |s| > 0 && s[0] == '`' && !StartsWith(s, Fence)
    ensures !StartsWith(s[1..], "``")
  {
    if |s| >= 3 {
      assert s[..3] == [s[0]] + s[1..][..2];
    }
  }

  /** After removing every fence, no three backquotes are left in a row. */
  lemma {:induction false} RemoveAllLeavesNoFence(s: string)
    ensures NoFence(RemoveAll(s, Fence))
    decreases |s|
  {
    if |s| == 0 {
    } else if StartsWith(s, Fence) {
      var rest := s[|Fence|..];
      if |rest| > 0 && rest[0] == '\n' {
        RemoveAllLeavesNoFence(rest[1..]);
      } else {
        RemoveAllLeavesNoFence(rest);
      }
    } else {
      var tail := RemoveAll(s[1..], Fence);
      RemoveAllLeavesNoFence(s[1..]);
      var r := [s[0]] + tail;
      assert RemoveAll(s, Fence) == r;
      if s[0] == '`' {
        TickNotFence(s);
        NoDoubleTickAfterRemoval(s[1..]);
        if |r| >= 3 {
          assert r[1..3] == tail[..2];
        }
      }
      assert !StartsWith(r, Fence) by {
        if |r| >= 3 {
          assert r[..3][0] == s[0];
        }
      }
      forall i | 0 < i <= |r|
        ensures !StartsWith(r[i..], Fence)
      {
        assert r[i..] == tail[i - 1..];
      }
      assert r[0..] == r;
    }
  }

  /** Whenever the trimmed reply starts with a fence, the text handed to JSON.parse holds none. */
  lemma StripFencesRemovesEveryFence(text: string)
    requires StartsWith(Trim(text), Fence)
    ensures NoFence(StripFences(text))
  {
    var t := Trim(text);
    if StartsWith(t, JsonFence) {
      RemoveAllLeavesNoFence(RemoveAll(t, JsonFence));
    } else {
      RemoveAllLeavesNoFence(t);
    }
  }

  lemma JsonFenceIsFence(t: string)
    ensures StartsWith(t, JsonFence) ==> StartsWith(t, Fence)
  {
    if StartsWith(t, JsonFence) {
      assert t[..3] == t[..7][..3];
    }
  }

  /** A trimmed reply that starts with no fence is handed to JSON.parse unchanged. */
  lemma StripFencesUnfenced(text: string)
    requires !StartsWith(Trim(text), Fence)
    ensures StripFences(text) == Trim(text)
  {
    JsonFenceIsFence(Trim(text));
  }

  /** A fence-free body followed by a newline and a closing fence holds no json-tagged fence. */
  lemma ClosedBodyHasNoJsonFence(body: string)
    requires NoFence(body)
    ensures NoMatchBefore(body + "\n```", JsonFence, |body| + 4)
  {
    var inner := body + "\n```";
    forall i | 0 <= i <= |inner|
      ensures !StartsWith(inner[i..], JsonFence)
    {
      if i + 3 <= |body| {
        assert inner[i..][..3] == body[i..][..3];
        assert !StartsWith(body[i..], Fence);
      } else if i <= |body| {
        assert inner[i..][|body| - i] == '\n';
      }
    }
  }

  /** In a fence-free body followed by a newline and a closing fence, the only match is the closing one. */
  lemma ClosedBodyFenceAtEnd(body: string)
    requires NoFence(body)
    ensures NoMatchBefore(body + "\n```", Fence, |body| + 1)
  {
    var inner := body + "\n```";
    forall i | 0 <= i < |body| + 1
      ensures !StartsWith(inner[i..], Fence)
    {
      if i + 3 <= |body| {
        assert inner[i..][..3] == body[i..][..3];
        assert !StartsWith(body[i..], Fence);
      } else {
        assert inner[i..][|body| - i] == '\n';
      }
    }
  }

  /** The json branch of StripFences, for a reply that needs no trimming. */
  lemma StripFencesJsonBranch(text: string)
    requires text != [] && !IsJsSpace(text[0]) && !IsJsSpace(text[|text| - 1])
    requires StartsWith(text, JsonFence)
    ensures StripFences(text) == RemoveAll(RemoveAll(text, JsonFence), Fence)
  {
    TrimKeepsUnpadded(text);
  }

  /** The opening `json` fence and its newline are the only json-tagged match. */
  lemma OpeningFenceRemoved(body: string)
    requires NoFence(body)
    ensures RemoveAll(JsonFence + "\n" + body + "\n```", JsonFence) == body + "\n```"
  {
    var inner := body + "\n```";
    var text := JsonFence + "\n" + inner;
    assert JsonFence + "\n" + body + "\n```" == text;
    assert StartsWith(text, JsonFence) by { assert text[..7] == JsonFence; }
    assert text[|JsonFence|..] == "\n" + inner;
    assert ("\n" + inner)[1..] == inner;
    assert RemoveAll(text, JsonFence) == RemoveAll(inner, JsonFence);
    ClosedBodyHasNoJsonFence(body);
    RemoveAllUnmatched(inner, JsonFence);
  }

  /** The closing fence is the only plain match. */
  lemma ClosingFenceRemoved(body: string)
    requires NoFence(body)
    ensures RemoveAll(body + "\n```", Fence) == body + "\n"
  {
    var inner := body + "\n```";
    ClosedBodyFenceAtEnd(body);
    RemoveAllSkipsPrefix(inner, Fence, |body| + 1);
    assert inner[..|body| + 1] == body + "\n";
    assert inner[|body| + 1..] == Fence;
  }

  /** The usual reply: a json-tagged fenced block around a fence-free body. */
  lemma StripFencesRoundTrip(body: string)
    requires NoFence(body)
    ensures StripFences("```json\n" + body + "\n```") == body + "\n"
  {
    var text := JsonFence + "\n" + body + "\n```";
    assert "```json\n" + body + "\n```" == text;
    assert StartsWith(text, JsonFence) by { assert text[..7] == JsonFence; }
    StripFencesJsonBranch(text);
    OpeningFenceRemoved(body);
    ClosingFenceRemoved(body);
  }

  // ---------------------------------------------------------------------------
  // Normalisation of the parsed reply

  /** The normalised extraction result; every field holds whatever value survived `||`. */
  datatype InvoiceRecord = InvoiceRecord(
    invoiceNumber: Value, invoiceDate: Value, vendorName: Value,
    vendorAddress: Value, vendorGSTIN: Value, customerName: Value,
    lineItems: Value,
    subtotal: Value, cgst: Value, sgst: Value, igst: Value, totalAmount: Value,
    currency: Value, confidence: Value)

  /** The fourteen keys of the record. */
  datatype Key =
    | InvoiceNumber | InvoiceDate | VendorName | VendorAddress | VendorGSTIN | CustomerName
    | LineItems | Subtotal | Cgst | Sgst | Igst | TotalAmount | Currency | Confidence

  function Name(k: Key): string
  {
    match k
    case InvoiceNumber => "invoiceNumber"
    case InvoiceDate => "invoiceDate"
    case VendorName => "vendorName"
    case VendorAddress => "vendorAddress"
    case VendorGSTIN => "vendorGSTIN"
    case CustomerName => "customerName"
    case LineItems => "lineItems"
    case Subtotal => "subtotal"
    case Cgst => "cgst"
    case Sgst => "sgst"
    case Igst => "igst"
    case TotalAmount => "totalAmount"
    case Currency => "currency"
    case Confidence => "confidence"
  }

  function Field(rec: InvoiceRecord, k: Key): Value
  {
    match k
    case InvoiceNumber => rec.invoiceNumber
    case InvoiceDate => rec.invoiceDate
    case VendorName => rec.vendorName
    case VendorAddress => rec.vendorAddress
    case VendorGSTIN => rec.vendorGSTIN
    case CustomerName => rec.customerName
    case LineItems => rec.lineItems
    case Subtotal => rec.subtotal
    case Cgst => rec.cgst
    case Sgst => rec.sgst
    case Igst => rec.igst
    case TotalAmount => rec.totalAmount
    case Currency => rec.currency
    case Confidence => rec.confidence
  }

  /** What a falsy entry of the reply is replaced by; `confidence` is never read from the reply. */
  function Default(k: Key): Value
  {
    match k
    case InvoiceNumber | InvoiceDate | VendorName => Str("N/A")
    case VendorAddress | VendorGSTIN | CustomerName => Str("")
    case LineItems => Arr([])
    case Currency => Str("INR")
    case Confidence => Str("high")
    case _ => Num(0)
  }

  const RecordKeys: set<string> := {
    "invoiceNumber", "invoiceDate", "vendorName", "vendorAddress", "vendorGSTIN",
    "customerName", "lineItems", "subtotal", "cgst", "sgst", "igst", "totalAmount",
    "currency", "confidence"}

  /** The record as the JavaScript object the service returns and logs. */
  function ToValue(rec: InvoiceRecord): (v: Value)
    ensures v.Obj? && v.fields.Keys == RecordKeys
  {
    Obj(map[
      "invoiceNumber" := rec.invoiceNumber, "invoiceDate" := rec.invoiceDate,
      "vendorName" := rec.vendorName, "vendorAddress" := rec.vendorAddress,
      "vendorGSTIN" := rec.vendorGSTIN, "customerName" := rec.customerName,
      "lineItems" := rec.lineItems, "subtotal" := rec.subtotal, "cgst" := rec.cgst,
      "sgst" := rec.sgst, "igst" := rec.igst, "totalAmount" := rec.totalAmount,
      "currency" := rec.currency, "confidence" := rec.confidence])
  }

  /** Each key of the record's object holds the field of that name. */
  lemma ToValueFields(rec: InvoiceRecord, k: Key)
    ensures Name(k) in ToValue(rec).fields && ToValue(rec).fields[Name(k)] == Field(rec, k)
  {
  }

  /**
   * The object literal built from the parsed reply. Reading a property of a
   * parsed `null` throws, which is the only way this step fails.
   */
  function Normalize(parsed: Value): (r: Result<InvoiceRecord>)
    ensures r.Ok? <==> Accessible(parsed)
    ensures r.Ok? ==> Field(r.value, Confidence) == Str("high")
    ensures r.Ok? ==> forall k :: k != Confidence ==>
      (Truthy(Get(parsed, Name(k))) ==> Field(r.value, k) == Get(parsed, Name(k))) &&
      (!Truthy(Get(parsed, Name(k))) ==> Field(r.value, k) == Default(k))
    ensures r.Ok? ==> forall k :: Accessible(Field(r.value, k))
    ensures r.Err? ==> r.error == ReadError(parsed, "invoiceNumber")
  {
    if !Accessible(parsed) then Err(ReadError(parsed, "invoiceNumber"))
    else
      Ok(InvoiceRecord(
        invoiceNumber := Or(Get(parsed, "invoiceNumber"), Str("N/A")),
        invoiceDate := Or(Get(parsed, "invoiceDate"), Str("N/A")),
        vendorName := Or(Get(parsed, "vendorName"), Str("N/A")),
        vendorAddress := Or(Get(parsed, "vendorAddress"), Str("")),
        vendorGSTIN := Or(Get(parsed, "vendorGSTIN"), Str("")),
        customerName := Or(Get(parsed, "customerName"), Str("")),
        lineItems := Or(Get(parsed, "lineItems"), Arr([])),
        subtotal := Or(Get(parsed, "subtotal"), Num(0)),
        cgst := Or(Get(parsed, "cgst"), Num(0)),
        sgst := Or(Get(parsed, "sgst"), Num(0)),
        igst := Or(Get(parsed, "igst"), Num(0)),
        totalAmount := Or(Get(parsed, "totalAmount"), Num(0)),
        currency := Or(Get(parsed, "currency"), Str("INR")),
        confidence := Str("high")))
  }

  /** Normalising the service's own output gives back the same record. */
  lemma NormalizeIdempotent(parsed: Value)
    requires Normalize(parsed).Ok?
    ensures Normalize(ToValue(Normalize(parsed).value)) == Normalize(parsed)
  {
    var rec := Normalize(parsed).value;
    NormalizeFieldsAgain(rec, parsed);
    RecordExtensionality(Normalize(ToValue(rec)).value, rec);
  }

  /** Field by field, normalising a normalised record's object gives back its fields. */
  lemma NormalizeFieldsAgain(rec: InvoiceRecord, parsed: Value)
    requires Normalize(parsed) == Ok(rec)
    ensures Normalize(ToValue(rec)).Ok? && forall k :: Field(Normalize(ToValue(rec)).value, k) == Field(rec, k)
  {
    var v := ToValue(rec);
    forall k: Key
      ensures Field(Normalize(v).value, k) == Field(rec, k)
    {
      ToValueFields(rec, k);
      assert Get(v, Name(k)) == Field(rec, k);
      NormalizeFieldAgain(rec, parsed, v, k);
    }
  }

  /** A reply that holds a normalised record's field under its key normalises to that field again. */
  lemma NormalizeFieldAgain(rec: InvoiceRecord, parsed: Value, v: Value, k: Key)
    requires Normalize(parsed) == Ok(rec) && Accessible(v) && Get(v, Name(k)) == Field(rec, k)
    ensures Normalize(v).Ok? && Field(Normalize(v).value, k) == Field(rec, k)
  {
  }

  lemma RecordExtensionality(a: InvoiceRecord, b: InvoiceRecord)
    requires forall k :: Field(a, k) == Field(b, k)
    ensures a == b
  {
    assert a.invoiceNumber == b.invoiceNumber by { assert Field(a, InvoiceNumber) == Field(b, InvoiceNumber); }
    assert a.invoiceDate == b.invoiceDate by { assert Field(a, InvoiceDate) == Field(b, InvoiceDate); }
    assert a.vendorName == b.vendorName by { assert Field(a, VendorName) == Field(b, VendorName); }
    assert a.vendorAddress == b.vendorAddress by { assert Field(a, VendorAddress) == Field(b, VendorAddress); }
    assert a.vendorGSTIN == b.vendorGSTIN by { assert Field(a, VendorGSTIN) == Field(b, VendorGSTIN); }
    assert a.customerName == b.customerName by { assert Field(a, CustomerName) == Field(b, CustomerName); }
    assert a.lineItems == b.lineItems by { assert Field(a, LineItems) == Field(b, LineItems); }
    assert a.subtotal == b.subtotal by { assert Field(a, Subtotal) == Field(b, Subtotal); }
    assert a.cgst == b.cgst by { assert Field(a, Cgst) == Field(b, Cgst); }
    assert a.sgst == b.sgst by { assert Field(a, Sgst) == Field(b, Sgst); }
    assert a.igst == b.igst by { assert Field(a, Igst) == Field(b, Igst); }
    assert a.totalAmount == b.totalAmount by { assert Field(a, TotalAmount) == Field(b, TotalAmount); }
    assert a.currency == b.currency by { assert Field(a, Currency) == Field(b, Currency); }
    assert a.confidence == b.confidence by { assert Field(a, Confidence) == Field(b, Confidence); }
  }

  /** Only the fourteen keys of the reply matter: replies that agree on them normalise alike. */
  lemma NormalizeReadsOnlyRecordKeys(p: Value, q: Value)
    requires Accessible(p) && Accessible(q)
    requires forall k: Key :: Get(p, Name(k)) == Get(q, Name(k))
    ensures Normalize(p) == Normalize(q)
  {
    var a := Normalize(p).value;
    var b := Normalize(q).value;
    forall k: Key
      ensures Field(a, k) == Field(b, k)
    {
      assert Get(p, Name(k)) == Get(q, Name(k));
    }
    RecordExtensionality(a, b);
  }

  const ExtractionErrorPrefix := "Failed to extract invoice data: "

  /**
   * extractInvoiceData after the model has answered: `reply` is the model's
   * text or the error of the call, `parse` stands for JSON.parse. Every failure
   * becomes one Error whose message starts with the same prefix.
   */
  function ExtractInvoiceData(reply: Result<string>, parse: string -> Result<Value>): (r: Result<InvoiceRecord>)
    ensures r.Ok? <==> reply.Ok? && parse(StripFences(reply.value)).Ok? && Accessible(parse(StripFences(reply.value)).value)
    ensures r.Ok? ==> r == Normalize(parse(StripFences(reply.value)).value)
    ensures r.Err? ==> StartsWith(r.error, ExtractionErrorPrefix)
    ensures reply.Err? ==> r == Err(ExtractionErrorPrefix + reply.error)
    ensures reply.Ok? && parse(StripFences(reply.value)).Err? ==>
      r == Err(ExtractionErrorPrefix + parse(StripFences(reply.value)).error)
    ensures reply.Ok? && parse(StripFences(reply.value)).Ok? && !Accessible(parse(StripFences(reply.value)).value) ==>
      r == Err(ExtractionErrorPrefix + ReadError(parse(StripFences(reply.value)).value, "invoiceNumber"))
  {
    match reply
    case Err(e) => Err(ExtractionErrorPrefix + e)
    case Ok(text) =>
      match parse(StripFences(text))
      case Err(e) => Err(ExtractionErrorPrefix + e)
      case Ok(parsed) =>
        match Normalize(parsed)
        case Err(e) => Err(ExtractionErrorPrefix + e)
        case Ok(rec) => Ok(rec)
  }
}

=== FILE: InvoiceRoutes.dfy ===
/**
 * The HTTP handlers that change the activity log: the upload filter, the
 * `/upload` decision procedure and the two export handlers. Extraction is
 * given as its outcome, and each logActivity call as its clock reading and
 * write outcome.
 */
module InvoiceRoutes {
  import opened Wrappers
  import opened JsValue
  import GeminiService
  import ExcelService
  import LogService

  // ---------------------------------------------------------------------------
  // The upload middleware

  const MaxFileSize: nat := 10 * 1024 * 1024

  datatype IncomingFile = IncomingFile(originalname: string, mimetype: string, size: nat)

  /** The fileFilter: exactly the PDF media type, nothing else. */
  predicate PdfOnly(mimetype: string)
  {
    mimetype == "application/pdf"
  }

  const NotPdfMessage := "Only PDF files are allowed!"
  const TooLargeMessage := "File too large"

  /**
   * What the upload middleware lets through to the handler: no file at all,
   * or a PDF of at most 10 MiB. A refused file never reaches the handler.
   */
  function Admit(file: Option<IncomingFile>): (r: Result<Option<IncomingFile>>)
    ensures r.Ok? <==> file.None? || (PdfOnly(file.value.mimetype) && file.value.size <= MaxFileSize)
    ensures r.Ok? ==> r.value == file
    ensures file.Some? && !PdfOnly(file.value.mimetype) ==> r == Err(NotPdfMessage)
    ensures file.Some? && PdfOnly(file.value.mimetype) && file.value.size > MaxFileSize ==> r == Err(TooLargeMessage)
  {
    match file
    case None => Ok(None)
    case Some(f) =>
      if !PdfOnly(f.mimetype) then Err(NotPdfMessage)
      else if f.size > MaxFileSize then Err(TooLargeMessage)
      else Ok(Some(f))
  }

  // ---------------------------------------------------------------------------
  // Requests, responses, log entries

  /** The `x-api-key` header is absent (None) or a string. */
  datatype UploadRequest = UploadRequest(file: Option<IncomingFile>, apiKey: Option<string>)

  /**
   * One logActivity call's view of the world: Date.now(), the ISO time the
   * handler stamped, whether reading the log file succeeded and whether
   * writing it did.
   */
  datatype Tick = Tick(now: int, iso: string, read: bool, written: bool)

  datatype Response =
    | Json(status: nat, body: Value)
    | Download(file: ExcelService.ExportFile, name: string)
    | UploadRefused(reason: string)

  predicate KeyPresent(apiKey: Option<string>)
  {
    apiKey.Some? && apiKey.value != ""
  }

  const NoFileBody := Obj(map["error" := Str("No file uploaded")])
  const NoKeyBody := Obj(map[
    "error" := Str("Gemini API key is required"),
    "message" := Str("Please provide your Gemini API key in the X-API-Key header")])

  function ProcessingEntry(fileName: string, iso: string): LogService.Entry
  {
    map["action" := Str("upload"), "fileName" := Str(fileName), "status" := Str("processing"), "timestamp" := Str(iso)]
  }

  function SuccessEntry(fileName: string, iso: string, rec: GeminiService.InvoiceRecord): LogService.Entry
  {
    map["action" := Str("extraction"), "fileName" := Str(fileName), "status" := Str("success"),
        "timestamp" := Str(iso), "data" := GeminiService.ToValue(rec)]
  }

  /** The failure entry names the file `unknown` when its original name is empty. */
  function FailedEntry(fileName: string, iso: string, message: string): LogService.Entry
  {
    map["action" := Str("extraction"), "fileName" := Or(Str(fileName), Str("unknown")), "status" := Str("failed"),
        "error" := Str(message), "timestamp" := Str(iso)]
  }

  datatype Outcome = Outcome(response: Response, log: seq<LogService.Entry>)

  /**
   * The `/upload` handler as a decision: the response and the entries it
   * appends, in order. The middleware decides first, then the file check,
   * then the key check; only a request past all three is logged.
   */
  function UploadOutcome(req: UploadRequest, extracted: Result<GeminiService.InvoiceRecord>, iso1: string, iso2: string): (o: Outcome)
    ensures Admit(req.file).Err? ==> o == Outcome(UploadRefused(Admit(req.file).error), [])
    ensures req.file.None? ==> o == Outcome(Json(400, NoFileBody), [])
    ensures req.file.Some? && Admit(req.file).Ok? && !KeyPresent(req.apiKey) ==> o == Outcome(Json(400, NoKeyBody), [])
    ensures o.log != [] <==> Admit(req.file).Ok? && req.file.Some? && KeyPresent(req.apiKey)
    ensures o.log != [] ==> |o.log| == 2 && o.log[0] == ProcessingEntry(req.file.value.originalname, iso1)
    ensures o.log != [] && extracted.Ok? ==>
      o.log[1] == SuccessEntry(req.file.value.originalname, iso2, extracted.value) &&
      o.response == Json(200, Obj(map["success" := Bool(true), "data" := GeminiService.ToValue(extracted.value),
                                     "fileName" := Str(req.file.value.originalname)]))
    ensures o.log != [] && extracted.Err? ==>
      o.log[1] == FailedEntry(req.file.value.originalname, iso2, extracted.error) &&
      o.response == Json(500, Obj(map["success" := Bool(false), "error" := Str("Failed to process invoice"),
                                     "message" := Str(extracted.error)]))
  {
    match Admit(req.file)
    case Err(reason) => Outcome(UploadRefused(reason), [])
    case Ok(file) =>
      if file.None? then Outcome(Json(400, NoFileBody), [])
      else if !KeyPresent(req.apiKey) then Outcome(Json(400, NoKeyBody), [])
      else
        var name := file.value.originalname;
        match extracted
        case Ok(rec) =>
          Outcome(Json(200, Obj(map["success" := Bool(true), "data" := GeminiService.ToValue(rec), "fileName" := Str(name)])),
                  [ProcessingEntry(name, iso1), SuccessEntry(name, iso2, rec)])
        case Err(message) =>
          Outcome(Json(500, Obj(map["success" := Bool(false), "error" := Str("Failed to process invoice"), "message" := Str(message)])),
                  [ProcessingEntry(name, iso1), FailedEntry(name, iso2, message)])
  }

  /**
   * After an upload past validation whose two writes succeed and whose second
   * read succeeds, the log ends with the processing entry followed by the
   * outcome entry.
   */
  lemma UploadLogsInOrder(file: Option<seq<LogService.Entry>>, req: UploadRequest,
                          extracted: Result<GeminiService.InvoiceRecord>, t1: Tick, t2: Tick)
    requires Admit(req.file).Ok? && req.file.Some? && KeyPresent(req.apiKey) && t1.written && t2.read && t2.written
    ensures var log := UploadOutcome(req, extracted, t1.iso, t2.iso).log;
      |log| == 2 && log[0] == ProcessingEntry(req.file.value.originalname, t1.iso) &&
      LogService.EndsWith(LogService.AfterAppend(LogService.AfterAppend(file, log[0], t1.now, t1.read, true), log[1], t2.now, true, true),
        log[0], t1.now, log[1], t2.now)
  {
    var log := UploadOutcome(req, extracted, t1.iso, t2.iso).log;
    LogService.AfterAppendTwice(file, log[0], log[1], t1.now, t2.now, t1.read);
  }

  // ---------------------------------------------------------------------------
  // Handlers

  /**
   * POST /upload. The middleware's refusal is handed to the application's
   * error handler; everything after it is the handler's own code.
   */
  method Upload(store: LogService.LogStore, req: UploadRequest, extracted: Result<GeminiService.InvoiceRecord>, t1: Tick, t2: Tick)
    returns (resp: Response)
    modifies store
    ensures resp == UploadOutcome(req, extracted, t1.iso, t2.iso).response
    ensures var log := UploadOutcome(req, extracted, t1.iso, t2.iso).log;
      (log == [] ==> store.file == old(store.file)) &&
      (log != [] ==>
        store.file == LogService.AfterAppend(LogService.AfterAppend(old(store.file), log[0], t1.now, t1.read, t1.written), log[1], t2.now, t2.read, t2.written))
  {
    var admitted := Admit(req.file);
    if admitted.Err? {
      return UploadRefused(admitted.error);
    }
    if req.file.None? {
      return Json(400, NoFileBody);
    }
    if req.apiKey.None? || req.apiKey.value == "" {
      return Json(400, NoKeyBody);
    }
    var fileName := req.file.value.originalname;
    var _ := store.LogActivity(ProcessingEntry(fileName, t1.iso), t1.now, t1.read, t1.written);
    match extracted {
      case Ok(rec) =>
        var _ := store.LogActivity(SuccessEntry(fileName, t2.iso, rec), t2.now, t2.read, t2.written);
        resp := Json(200, Obj(map["success" := Bool(true), "data" := GeminiService.ToValue(rec), "fileName" := Str(fileName)]));
      case Err(message) =>
        var _ := store.LogActivity(FailedEntry(fileName, t2.iso, message), t2.now, t2.read, t2.written);
        resp := Json(500, Obj(map["success" := Bool(false), "error" := Str("Failed to process invoice"), "message" := Str(message)]));
    }
  }

  /** `${fileName || 'invoice'}.xlsx` or `.csv`: the name the browser is offered. */
  function DownloadName(fileName: Value, ext: string): (name: string)
    ensures !Truthy(fileName) ==> name == "invoice" + ext
    ensures Truthy(fileName) ==> name == ToStr(fileName) + ext
    ensures fileName.Str? && fileName.s != "" ==> name == fileName.s + ext
  {
    ToStr(Or(fileName, Str("invoice"))) + ext
  }

  /**
   * The stored file and the offered download disagree on a falsy name: the
   * generator's default parameter replaces only an undefined name, `||` every falsy one.
   */
  lemma EmptyNameDisagrees(now: nat)
    ensures var path := ExcelService.ExportPath(Str(""), now, ".csv");
      |path| > 0 && path[0] == '-' && DownloadName(Str(""), ".csv") == "invoice.csv"
  {
  }

  function ExportEntry(format: string, fileName: Value, iso: string): LogService.Entry
  {
    map["action" := Str("export"), "format" := Str(format), "fileName" := fileName, "status" := Str("success"), "timestamp" := Str(iso)]
  }

  const ExcelFailureBody := Obj(map["error" := Str("Failed to generate Excel file")])
  const CsvFailureBody := Obj(map["error" := Str("Failed to generate CSV file")])

  /**
   * POST /export/excel: `now` is the generator's Date.now() and `written`
   * whether the workbook was written. The export is logged only after it
   * succeeded; a failure answers 500 and logs nothing.
   */
  method ExportExcel(store: LogService.LogStore, body: Value, now: nat, written: bool, tick: Tick) returns (resp: Response)
    modifies store
    ensures resp.Download? <==> Accessible(body) && ExcelService.Workbook(Get(body, "data")).Ok? && written
    ensures !resp.Download? ==> resp == Json(500, ExcelFailureBody) && store.file == old(store.file)
    ensures resp.Download? ==>
      resp.file == ExcelService.GenerateExcel(Get(body, "data"), Get(body, "fileName"), now, written).value &&
      resp.name == DownloadName(Get(body, "fileName"), ".xlsx") &&
      store.file == LogService.AfterAppend(old(store.file), ExportEntry("excel", Get(body, "fileName"), tick.iso), tick.now, tick.read, tick.written)
  {
    if !Accessible(body) {
      return Json(500, ExcelFailureBody);
    }
    var data := Get(body, "data");
    var fileName := Get(body, "fileName");
    var generated := ExcelService.GenerateExcel(data, fileName, now, written);
    if generated.Err? {
      return Json(500, ExcelFailureBody);
    }
    var _ := store.LogActivity(ExportEntry("excel", fileName, tick.iso), tick.now, tick.read, tick.written);
    resp := Download(generated.value, DownloadName(fileName, ".xlsx"));
  }

  /** POST /export/csv: as the workbook export, with the CSV generator. */
  method ExportCsv(store: LogService.LogStore, body: Value, now: nat, written: bool, tick: Tick) returns (resp: Response)
    modifies store
    ensures resp.Download? <==> Accessible(body) && ExcelService.CsvText(Get(body, "data")).Ok? && written
    ensures !resp.Download? ==> resp == Json(500, CsvFailureBody) && store.file == old(store.file)
    ensures resp.Download? ==>
      resp.file == ExcelService.CsvFile(ExcelService.ExportPath(Get(body, "fileName"), now, ".csv"), ExcelService.CsvText(Get(body, "data")).value) &&
      resp.name == DownloadName(Get(body, "fileName"), ".csv") &&
      store.file == LogService.AfterAppend(old(store.file), ExportEntry("csv", Get(body, "fileName"), tick.iso), tick.now, tick.read, tick.written)
  {
    if !Accessible(body) {
      return Json(500, CsvFailureBody);
    }
    var data := Get(body, "data");
    var fileName := Get(body, "fileName");
    var generated := ExcelService.GenerateCsv(data, fileName, now, written);
    if generated.Err? {
      return Json(500, CsvFailureBody);
    }
    var _ := store.LogActivity(ExportEntry("csv", fileName, tick.iso), tick.now, tick.read, tick.written);
    resp := Download(generated.value, DownloadName(fileName, ".csv"));
  }
}

=== FILE: JsValue.dfy ===
/**
 * The JavaScript values the service handles: what JSON.parse returns, plus
 * `undefined` for a property that is absent. Numbers are integers here.
 * This module gives the three pieces of JavaScript semantics the core relies on:
 * truthiness (and with it `a || b`), property access, and the string a value
 * becomes inside a template literal.
 */
module JsValue {

  datatype Value =
    | Undefined
    | Null
    | Bool(b: bool)
    | Num(n: int)
    | Str(s: string)
    | Arr(items: seq<Value>)
    | Obj(fields: map<string, Value>)

  /** ECMAScript ToBoolean: undefined, null, false, 0 and "" are falsy; arrays and objects are truthy. */
  predicate Truthy(v: Value)
  {
    match v
    case Undefined => false
    case Null => false
    case Bool(b) => b
    case Num(n) => n != 0
    case Str(s) => s != ""
    case Arr(_) => true
    case Obj(_) => true
  }

  /** `v || fallback`. */
  function Or(v: Value, fallback: Value): Value
  {
    if Truthy(v) then v else fallback
  }

  /** Reading a property of `undefined` or `null` throws a TypeError; of anything else it does not. */
  predicate Accessible(v: Value)
  {
    !v.Undefined? && !v.Null?
  }

  /**
   * The message of the TypeError V8 throws when code reads `key` of null or
   * undefined, e.g. "Cannot read properties of null (reading 'invoiceNumber')".
   */
  function ReadError(v: Value, key: string): string
    requires !Accessible(v)
  {
    "Cannot read properties of " + (if v.Null? then "null" else "undefined") + " (reading '" + key + "')"
  }

  /**
   * `v[key]` for the non-numeric keys the core reads: an own key of an object,
   * the `length` of a string or an array, `undefined` otherwise.
   */
  function Get(v: Value, key: string): Value
    requires Accessible(v)
  {
    match v
    case Obj(m) => if key in m then m[key] else Undefined
    case Str(s) => if key == "length" then Num(|s|) else Undefined
    case Arr(a) => if key == "length" then Num(|a|) else Undefined
    case _ => Undefined
  }

  /** The decimal digits of a natural number, as Number.prototype.toString writes an integer. */
  function NatStr(n: nat): (r: string)
    ensures |r| > 0 && forall i :: 0 <= i < |r| ==> '0' <= r[i] <= '9'
    ensures |r| > 1 ==> r[0] != '0'
  {
    if n < 10 then [Digit(n)] else NatStr(n / 10) + [Digit(n % 10)]
  }

  function Digit(d: nat): (c: char)
    requires d < 10
  {
    "0123456789"[d]
  }

  /** The value of a decimal digit string; the inverse of NatStr. */
  function DigitsValue(s: string): int
  {
    if s == [] then 0 else 10 * DigitsValue(s[..|s| - 1]) + (s[|s| - 1] as int - '0' as int)
  }

  lemma {:induction false} NatStrRoundTrip(n: nat)
    ensures DigitsValue(NatStr(n)) == n
  {
    if n >= 10 {
      NatStrRoundTrip(n / 10);
      var s := NatStr(n / 10) + [Digit(n % 10)];
      assert s[..|s| - 1] == NatStr(n / 10);
    }
  }

  function IntStr(n: int): (r: string)
    ensures |r| > 0
  {
    if n < 0 then "-" + NatStr(-n) else NatStr(n)
  }

  /** `a.join(",")` on strings already converted. */
  function JoinComma(parts: seq<string>): string
  {
    if |parts| == 0 then ""
    else if |parts| == 1 then parts[0]
    else parts[0] + "," + JoinComma(parts[1..])
  }

  /**
   * The text `${v}` produces in a template literal: an array is joined with
   * commas (null and undefined elements become empty), a plain object becomes
   * "[object Object]". An object with its own `toString` key (never a function
   * in parsed JSON), alone or inside an array, makes the conversion throw a
   * TypeError; that case is not modelled.
   */
  function ToStr(v: Value): string
  {
    match v
    case Undefined => "undefined"
    case Null => "null"
    case Bool(b) => if b then "true" else "false"
    case Num(n) => IntStr(n)
    case Str(s) => s
    case Arr(items) =>
      JoinComma(seq(|items|, i requires 0 <= i < |items| =>
        if Accessible(items[i]) then ToStr(items[i]) else ""))
    case Obj(_) => "[object Object]"
  }
}

=== FILE: LogService.dfy ===
/**
 * The activity log: a JSON array kept in one file, read, extended by one
 * entry, cut down to its last hundred entries and written back on every call.
 */
module LogService {
  import opened Wrappers
  import opened JsValue

  /** A log entry is a plain object. */
  type Entry = map<string, Value>

  const Capacity: nat := 100

  function Min(a: int, b: int): int
  {
    if a < b then a else b
  }

  /**
   * `{id: now, ...logEntry}` as it lands in the file: the spread comes last, so a
   * key of the caller's object wins over the timestamp id, and JSON.stringify
   * leaves out every key whose value is undefined.
   */
  function Stamp(logEntry: Entry, now: int): (e: Entry)
    ensures forall k :: k in e <==> (k == "id" || k in logEntry) && !(k in logEntry && logEntry[k] == Undefined)
    ensures forall k :: k in logEntry && logEntry[k] != Undefined ==> e[k] == logEntry[k]
    ensures "id" !in logEntry ==> e["id"] == Num(now)
  {
    var spread := map["id" := Num(now)] + logEntry;
    map k | k in spread && spread[k] != Undefined :: spread[k]
  }

  /** The stored sequence after pushing e and keeping only the last Capacity entries. */
  function Appended(logs: seq<Entry>, e: Entry): (r: seq<Entry>)
    ensures |r| == Min(|logs| + 1, Capacity)
    ensures r[|r| - 1] == e
    ensures forall i :: 0 <= i < |r| - 1 ==> r[i] == logs[|logs| - (|r| - 1) + i]
  {
    var all := logs + [e];
    if |all| > Capacity then all[|all| - Capacity..] else all
  }

  /** On a full log, an append evicts exactly the oldest entry. */
  lemma AppendEvictsOldest(logs: seq<Entry>, e: Entry)
    requires |logs| >= Capacity
    ensures Appended(logs, e) == logs[|logs| - Capacity + 1..] + [e]
  {
    var r := Appended(logs, e);
    var expected := logs[|logs| - Capacity + 1..] + [e];
    assert |r| == |expected|;
    forall i | 0 <= i < |r|
      ensures r[i] == expected[i]
    {
    }
  }

  /** Two appends in a row leave their entries as the last two, in the order they were made. */
  lemma AppendTwiceKeepsOrder(logs: seq<Entry>, a: Entry, b: Entry)
    ensures var r := Appended(Appended(logs, a), b);
      |r| >= 2 && r[|r| - 2] == a && r[|r| - 1] == b
  {
    var mid := Appended(logs, a);
    var r := Appended(mid, b);
    assert r[|r| - 2] == mid[|mid| - 1];
  }

  /** The stored sequence as logActivity and getLogs read it: a missing or unparseable file reads as empty. */
  function Current(file: Option<seq<Entry>>): seq<Entry>
  {
    match file
    case Some(logs) => logs
    case None => []
  }

  /**
   * What one read of the file yields: `readOk` says whether readFile
   * succeeded. Any read error (the file is missing, unreadable, a directory)
   * is caught and reads as empty, like a file that does not parse.
   */
  function ReadLogs(file: Option<seq<Entry>>, readOk: bool): (logs: seq<Entry>)
  {
    if readOk then Current(file) else []
  }

  /** The file after one logActivity call; a failed write leaves it as it was. */
  function AfterAppend(file: Option<seq<Entry>>, logEntry: Entry, now: int, readOk: bool, written: bool): (after: Option<seq<Entry>>)
    ensures !written ==> after == file
    ensures written ==>
      after.Some? && |after.value| == Min(|ReadLogs(file, readOk)| + 1, Capacity) &&
      after.value[|after.value| - 1] == Stamp(logEntry, now)
  {
    if written then Some(Appended(ReadLogs(file, readOk), Stamp(logEntry, now))) else file
  }

  /**
   * A read that fails on a file holding entries, followed by a successful
   * write, replaces the whole stored log with the one new entry.
   */
  lemma ReadFailureDropsLog(file: Option<seq<Entry>>, logEntry: Entry, now: int)
    ensures AfterAppend(file, logEntry, now, false, true) == Some([Stamp(logEntry, now)])
  {
    assert Appended([], Stamp(logEntry, now)) == [Stamp(logEntry, now)];
  }

  /** The stored log ends with `a` stamped at `now1` followed by `b` stamped at `now2`. */
  predicate EndsWith(file: Option<seq<Entry>>, a: Entry, now1: int, b: Entry, now2: int)
  {
    var logs := Current(file);
    |logs| >= 2 && logs[|logs| - 2] == Stamp(a, now1) && logs[|logs| - 1] == Stamp(b, now2)
  }

  /** Two successful logActivity calls leave their two entries last, in call order. */
  lemma AfterAppendTwice(file: Option<seq<Entry>>, a: Entry, b: Entry, now1: int, now2: int, read1: bool)
    ensures EndsWith(AfterAppend(AfterAppend(file, a, now1, read1, true), b, now2, true, true), a, now1, b, now2)
  {
    AppendTwiceKeepsOrder(ReadLogs(file, read1), Stamp(a, now1), Stamp(b, now2));
  }

  /** The log file, read and rewritten by every call. */
  class LogStore {
    /** None: the file is missing or does not parse. */
    var file: Option<seq<Entry>>

    constructor (initial: Option<seq<Entry>>)
      ensures file == initial
    {
      file := initial;
    }

    /**
     * logActivity: `now` is Date.now(), `readOk` says whether reading the file
     * succeeded and `written` whether writing it did. It never throws; it
     * reports success as a boolean.
     */
    method LogActivity(logEntry: Entry, now: int, readOk: bool, written: bool) returns (ok: bool)
      modifies this
      ensures ok == written
      ensures file == AfterAppend(old(file), logEntry, now, readOk, written)
      ensures ok ==> |Current(file)| == Min(|ReadLogs(old(file), readOk)| + 1, Capacity)
      ensures ok ==> Current(file)[|Current(file)| - 1] == Stamp(logEntry, now)
    {
      var logs: seq<Entry> := [];
      if readOk {
        match file {
          case Some(stored) => logs := stored;
          case None => logs := [];
        }
      }
      logs := logs + [Stamp(logEntry, now)];
      if |logs| > Capacity {
        logs := logs[|logs| - Capacity..];
      }
      if written {
        file := Some(logs);
        ok := true;
      } else {
        ok := false;
      }
    }

    /** getLogs: the stored sequence, or an empty one when the file is missing, unreadable or unparseable. */
    method GetLogs(readOk: bool) returns (logs: seq<Entry>)
      ensures logs == ReadLogs(file, readOk)
      ensures readOk && file.Some? ==> logs == file.value
      ensures !readOk || file.None? ==> logs == []
    {
      logs := [];
      if readOk {
        match file {
          case Some(stored) => logs := stored;
          case None => logs := [];
        }
      }
    }
  }
}

=== FILE: Wrappers.dfy ===
/** Option and Result: absence, and the thrown error of the JavaScript code as a value. */
module Wrappers {

  datatype Option<T> = None | Some(value: T)

  /** A computation that either produced a value or threw an Error with a message. */
  datatype Result<T> = Ok(value: T) | Err(error: string)
}
